=== FILE: README.md ===
# Real-estate price prediction: preprocessing transformers and form script

This project models, in Dafny, the two parts of the real-estate price predictor that carry logic of their own:

- **The scikit-learn transformers** of `utils/transfomers.py`:
  - `FrequencyEncoder` replaces every value by its relative frequency in the training frame.
  - `CustomImputer` fills null type, bedroom, bath and location cells from group modes and medians learned by `fit`.
  - `CustomPaymentImputer` fills a null initial amount or monthly installment from the median of the other amount's rounded group.
  - `FeatureGeneration` derives three columns and drops `remaining_installments`.
- **The prediction page script** `static/real-estate.js`:
  - the property-type box, which marks itself valid or invalid as the user types;
  - the submit handler, which checks for a purpose, shows a loading state, posts the form's payload (with its `|| 0` fallbacks) and ends in a success or an error state.

A pandas DataFrame is modelled at two levels:
- `Table.Frame` is a value: its columns in order, a map from column name to cells, and a height.
  - A cell is `None` (a pandas null), a number (`real`) or a string.
- `Table.DataFrame` is a class whose methods overwrite its column map and column order in place.
  - `FrequencyEncoder.transform` overwrites the caller's frame, so the model does too.
  - The other transformers work on `X.copy()`.

The transformers follow one pattern:
- `FrequencyEncoder`, `CustomImputer` and `CustomPaymentImputer` are classes whose fields are the dictionaries `fit` stores. Their `Fit` and `Transform` methods are proved equal to functions on frames: `FitTables` and `EncodeFrame`, `FitSteps` and `Impute`, `FitPayments` and `ImputePayments`.
- `FeatureGeneration`, whose `fit` does nothing, is a module-level `Transform` method proved equal to `GenerateFeatures`.
- Lemmas state what those functions promise:
  - which cells change and which do not;
  - what a filled cell becomes;
  - which error is raised, and when;
  - how `fit` and `transform` fit together.

Exceptions are modelled as `Result` or `Option` values:
- `UnseenColumn` for the encoder's ValueError;
- `KeyError` for a missing column, raised in the order Python evaluates;
- `TypeError` for arithmetic or rounding on a column holding a string.

The submit handler posts a payload only when a purpose is chosen and the result element exists (`static/real-estate.js` lines 52-62); see `PredictionForm.Submit`. Of the payload's numeric fields, only `initial_amount`, `monthly_installment` and `remaining_installments` fall back to 0 through `|| 0` (lines 82-84). `area`, `bedrooms` and `bath` carry what `parseFloat` returns, NaN included (lines 77-81); see `PredictionForm.BuildPayload`.

Modules:
- `Wrappers` (wrappers.dfy): `Option` and `Result`;
- `Table` (table.dfy);
- `FrequencyEncoding` (frequency_encoder.dfy);
- `Imputation` (custom_imputer.dfy);
- `PaymentImputation` (payment_imputer.dfy);
- `FeatureGeneration` (feature_generation.dfy);
- `TypeField` (type_field.dfy);
- `PredictionForm` (prediction_form.dfy).

## Model

| member | source | states |
|---|---|---|
| Table.WithColumn | utils/transfomers.py:219 | `X[c] = vals` gives column c exactly `vals` and changes no other column. An existing c keeps its place; a new c is appended last; the frame stays well formed. |
| Table.DropColumns | utils/transfomers.py:223 | `drop(columns=..., errors='ignore')` keeps the other columns in their order and with their data; names that are absent are ignored. |
| Table.DataFrame.Copy | utils/transfomers.py:216 | `X.copy()` is a fresh frame with the same contents. |
| Table.DataFrame.SetColumn | utils/transfomers.py:219 | Assigning a column in place leaves the frame as `WithColumn` says. |
| Table.DataFrame.Drop | utils/transfomers.py:223 | An in-place drop leaves the frame as `DropColumns` says. |
| FrequencyEncoding.NonNullCount | utils/transfomers.py:14 | The count `value_counts` divides by is at most the column length, and it is 0 exactly when every cell is null. |
| FrequencyEncoding.CountOf | utils/transfomers.py:14 | A value's count is positive exactly when the value occurs, and it is at most the non-null count. |
| FrequencyEncoding.Frequencies | utils/transfomers.py:14 | The normalized value counts have exactly the column's non-null values as keys, each with a share in (0, 1]. |
| FrequencyEncoding.CountsSum | utils/transfomers.py:14 | The counts of the distinct values add up to the number of non-null cells. |
| FrequencyEncoding.FrequenciesSumToOne | utils/transfomers.py:14 | The shares of a column with at least one non-null cell sum to 1. |
| FrequencyEncoding.EncodeColumn | utils/transfomers.py:25 | `map(freq).fillna(0)` keeps the length and makes every cell a number. A known value becomes its share; a null or unknown value becomes 0. |
| FrequencyEncoding.FitThenEncode | utils/transfomers.py:9-28 | Encoded with tables fitted on another column, a cell becomes its value's count over the fitted column's non-null count. It lies in [0, 1] and is 0 exactly for a null or a value unseen in fit. |
| FrequencyEncoding.FirstUnseen | utils/transfomers.py:23-27 | The loop stops at the first column without a table, or at the end; every column before that point has a table. |
| FrequencyEncoding.EncodedColumns | utils/transfomers.py:23-25 | Every column with a fitted table, encoded with that table. |
| FrequencyEncoding.EncodePrefix | utils/transfomers.py:23-25 | The first k columns are encoded and the rest are untouched; the frame's shape is kept. |
| FrequencyEncoding.EncodeFrame | utils/transfomers.py:19-28 | transform succeeds exactly when every column has a table, and then every column is encoded. Otherwise the error names the first unknown column: columns before it are already encoded and it and later ones are untouched. The shape is kept either way. |
| FrequencyEncoding.EncodePrefixStep | utils/transfomers.py:25 | Encoding column i of a frame whose first i columns are encoded gives the frame with i + 1 columns encoded. |
| FrequencyEncoding.EncodeFrameAt | utils/transfomers.py:23-27 | A transform that stops at column i (or at the end) has exactly that outcome. |
| FrequencyEncoding.FirstUnseenAt | utils/transfomers.py:23-27 | The stopping index is unique: a known prefix followed by an unknown column. |
| FrequencyEncoding.FitTables | utils/transfomers.py:13-15 | fit learns one table per column of X: the column's frequencies. |
| FrequencyEncoding.FrequencyEncoder.constructor | utils/transfomers.py:6-7 | `encoded_dec` starts empty. |
| FrequencyEncoding.FrequencyEncoder.Fit | utils/transfomers.py:9-17 | Adds or replaces the table of every column of X; the tables of other columns stay. Proved with a loop invariant over the column prefix. |
| FrequencyEncoding.FrequencyEncoder.Transform | utils/transfomers.py:19-28 | Overwrites the caller's frame column by column, and leaves the error and the frame exactly as `EncodeFrame` says. |
| Imputation.PairKey | utils/transfomers.py:125 | A pair key exists exactly when both cells are non-null, because groupby drops null keys. |
| Imputation.TagKey | utils/transfomers.py:148 | A tagged single key exists exactly when its cell is non-null. |
| Imputation.TagPairKey | utils/transfomers.py:147 | A tagged pair key exists exactly when both cells are non-null. |
| Imputation.Lookup | utils/transfomers.py:120 | `dict.get(key, default)` returns the entry when the key is present and the default otherwise. |
| Imputation.LookupMode | utils/transfomers.py:147-149 | The same `get` on a dictionary of modes. |
| Imputation.FirstHitPicksFirst | utils/transfomers.py:147-149 | In a nested fallback chain, the first key that is found decides, whatever follows it. |
| Imputation.FirstHitMisses | utils/transfomers.py:147-149 | When no key of the chain is found, the default comes back. |
| Imputation.FirstHitNull | utils/transfomers.py:147-149 | With a null default, the chain is null exactly when no key is found. |
| Imputation.Chain | utils/transfomers.py:147-159 | Each location column tries three keys, the pair first. |
| Imputation.ImputeLocation | utils/transfomers.py:145-161 | A non-null cell of the imputed column is returned unchanged. |
| Imputation.ImputeLocationFollowsChain | utils/transfomers.py:145-161 | A null cell takes the mode of the first key of its chain that the table has. It stays null exactly when none is found. |
| Imputation.FirstMissing | utils/transfomers.py:120 | The first column a rule reads that the frame lacks, which the row lambda's KeyError names; none exactly when all are present. |
| Imputation.RuleCellKeeps | utils/transfomers.py:119-131 | The three row lambdas, `TypeCell`, `BedroomCell` and `BathCell`, return a non-null target cell as it is. |
| Imputation.ApplyRule | utils/transfomers.py:118-139 | A block raises exactly when its column is present, holds a null, and a column the lambda reads is missing; the error names the first such column. Otherwise the shape is kept. |
| Imputation.ApplyRuleCells | utils/transfomers.py:118-139 | A block changes only null cells of its own column, and gives each of them the lambda's value. |
| Imputation.RunSteps | utils/transfomers.py:115-142 | The blocks run in order; a KeyError stops transform and names a column read by an enabled block that the frame lacks. |
| Imputation.RunStepsFills | utils/transfomers.py:115-142 | Across the blocks, only null cells of the enabled blocks' columns change. |
| Imputation.Imputed | utils/transfomers.py:118-139 | The columns the switches allow transform to fill, all among the six target columns. |
| Imputation.PlanTargets | utils/transfomers.py:118-139 | The enabled blocks fill exactly the columns the switches name. |
| Imputation.Impute | utils/transfomers.py:115-142 | transform keeps the columns and the height. It can fail only with a KeyError for a read column the frame lacks, so it never fails when every read column is present. |
| Imputation.ImputeFillsOnlyNulls | utils/transfomers.py:115-142 | Only null cells of the switched-on columns change. |
| Imputation.StepCell | utils/transfomers.py:119-139 | An enabled block sets each row of its column to its lambda's value on that row. |
| Imputation.StepKeeps | utils/transfomers.py:119-139 | A block leaves every other column as it was. |
| Imputation.Trace | utils/transfomers.py:115-142 | A successful transform passes through six intermediate frames, one per block. |
| Imputation.BedroomBathSteps | utils/transfomers.py:123-131 | The bath lambda reads the bedroom column the bedroom block has just filled. |
| Imputation.StepKeepsNumeric | utils/transfomers.py:118-139 | The type and location blocks leave area, bedroom and bath alone. |
| Imputation.BedroomThenBath | utils/transfomers.py:123-131 | A null bedroom takes the (area, bath) median. A null bath is looked up with the row's area and its already imputed bedroom count. |
| Imputation.StepKeepsLocations | utils/transfomers.py:118-131 | The type, bedroom and bath blocks leave the three location columns alone. |
| Imputation.LocationStep | utils/transfomers.py:134-139 | A location block sets its own column per `_impute_location` and leaves the other two alone. |
| Imputation.LocationSteps | utils/transfomers.py:133-139 | Location is imputed first, then city (seeing the new location), then province (seeing both). |
| Imputation.LocationsInOrder | utils/transfomers.py:133-139 | The same for a whole transform: each location column sees the cells the earlier location blocks filled. |
| Imputation.TagPairsAt | utils/transfomers.py:61-65 | The comprehension over a pair grouping (`TagPairs`) holds a key with its tag exactly for the groups of the grouping, each with the group's mode (`PairDict`, the grouping read as an untagged dictionary). Proved by induction over the groups. |
| Imputation.TagSinglesAt | utils/transfomers.py:66-75 | The same for a comprehension over a single-column grouping (`TagSingles`, read through `SingleDict`). |
| Imputation.TagPairsTagged | utils/transfomers.py:61-65 | Every key a pair comprehension builds is a pair carrying the comprehension's tag. |
| Imputation.TagSinglesTagged | utils/transfomers.py:66-75 | Every key a single-column comprehension builds is a single value carrying its tag. |
| Imputation.LocationTableKeys | utils/transfomers.py:60-75 | In `{}` followed by the three `update` calls (`LocationTable`), each tagged key finds exactly its own grouping's mode for the group: the two single tags differ, so the updates never overwrite each other's entries. |
| Imputation.LocationTableTagged | utils/transfomers.py:60-111 | Every key of a location dictionary carries one of its block's three tags: the pair tag on a pair, a single tag on a single value. |
| Imputation.InstallTagged | utils/transfomers.py:48-111 | Installing a block's table, with the tags of `LocationModes`, keeps every location dictionary holding only keys `_impute_location` asks for (`WellTagged`). |
| Imputation.FitStepTagged | utils/transfomers.py:48-111 | So does one fit block, including a location block that fails after emptying its dictionary. |
| Imputation.FitStepsTagged | utils/transfomers.py:45-113 | From tables holding only such keys, fit leaves tables holding only such keys. Proved by induction over the blocks. |
| Imputation.FitSteps | utils/transfomers.py:45-113 | fit runs its blocks in order; a KeyError stops it and names a column the frame lacks. |
| Imputation.FitStepClean | utils/transfomers.py:48-111 | On a frame with every column, a fit block (`FitStep`) never raises: it installs its table (`Install`) when its switch is on, and leaves the tables alone otherwise. |
| Imputation.FitNumeric | utils/transfomers.py:48-56 | On a frame with every column, the type, bedroom and bath blocks of fit succeed. |
| Imputation.FitEnabledStep | utils/transfomers.py:48-111 | On a frame with every column, an enabled fit block installs its table and fit goes on with the next block. |
| Imputation.InstallKeepsLocModes | utils/transfomers.py:76-111 | The city and province blocks leave `loc_modes` alone. |
| Imputation.FitLocations | utils/transfomers.py:58-111 | On a frame with every column, the location blocks succeed, and `loc_modes` is `{}` updated with the three tagged comprehensions. |
| Imputation.FitLocationModes | utils/transfomers.py:45-113 | On a frame with every column, fit succeeds and leaves `loc_modes` as its three comprehensions build it. |
| Imputation.LocationLookup | utils/transfomers.py:146-149 | With `loc_modes` as fit builds it, the nested tagged `get` calls read the groupings in order (`GroupedLocation`): the (city, province) group's mode, else the city's, else the province's, else null. |
| Imputation.FitThenImputeLocation | utils/transfomers.py:58-75 | After a fit on a frame with every column, a null location is imputed as `GroupedLocation` reads the groupings fit saw. No assumption about the keys is needed: the tags come from fit's own comprehensions. |
| Imputation.TransformBlock | utils/transfomers.py:118-139 | One transform block, applied in place to the copy, agrees with the remaining run of `RunSteps`. |
| Imputation.NumericBlocks | utils/transfomers.py:118-131 | The type, bedroom and bath blocks on the copy agree with the first three steps of `Impute`. |
| Imputation.LocationBlocks | utils/transfomers.py:133-139 | The three location blocks on the copy finish `Impute`. |
| Imputation.CustomImputer.constructor | utils/transfomers.py:32-43 | The switches are as given and every table is empty. |
| Imputation.CustomImputer.FitBlock | utils/transfomers.py:48-111 | One fit block updates the tables exactly as `FitStep` says. A location table is emptied before its groupby can raise. |
| Imputation.CustomImputer.ClearTable | utils/transfomers.py:60 | `self.loc_modes = {}` (or the city or province table) empties that table only, as `Reset` says. |
| Imputation.CustomImputer.SetTable | utils/transfomers.py:49-53 | The assignment at the end of a block installs that block's table only. |
| Imputation.CustomImputer.FitNumericBlocks | utils/transfomers.py:48-56 | The first three fit blocks agree with the first three steps of `FitSteps`. |
| Imputation.CustomImputer.FitLocationBlocks | utils/transfomers.py:58-111 | The location fit blocks finish `FitSteps`. |
| Imputation.CustomImputer.Fit | utils/transfomers.py:45-113 | The raised error and the new tables are exactly `FitSteps` over the plan; the switches are unchanged. |
| Imputation.CustomImputer.Transform | utils/transfomers.py:115-142 | The result is a fresh frame. On success it is `Impute` of the input; otherwise the error is `Impute`'s error. |
| PaymentImputation.Round | utils/transfomers.py:190 | `round(0)` gives the nearest whole number; a tie goes to the even one. |
| PaymentImputation.RoundCell | utils/transfomers.py:190 | A rounded cell is null exactly when the input is; otherwise it is the input's `Round`, hence within 1/2 of it. |
| PaymentImputation.RoundColumn | utils/transfomers.py:190-191 | KeyError exactly for a missing column and TypeError exactly for a column holding a string; otherwise every cell is rounded. |
| PaymentImputation.MapKey | utils/transfomers.py:196 | `map(dict)` yields the dictionary's value for a non-null key the dictionary has, and null for any other key. |
| PaymentImputation.FillMaskedCells | utils/transfomers.py:194-203 | A masked assignment (`FillMasked`) keeps non-null cells and gives each null cell the mapped key of its row. |
| PaymentImputation.ImputePayments | utils/transfomers.py:188-205 | On success the frame is well formed, has the input's height, and has the input's columns without the two helper columns. |
| PaymentImputation.RoundingError | utils/transfomers.py:174-175 | No error exactly when both amount columns are present and hold no string. Otherwise the error is the initial amount's KeyError, else its TypeError, else the installment's KeyError, else its TypeError. |
| PaymentImputation.ImputePaymentsErrors | utils/transfomers.py:190-191 | transform fails exactly when the rounding fails, and with the same error, whatever the fitted dictionaries. |
| PaymentImputation.ImputePaymentsKeeps | utils/transfomers.py:188-205 | Only the helper columns disappear. Columns other than the two amounts are unchanged, and no non-null cell changes. |
| PaymentImputation.PaymentCells | utils/transfomers.py:194-203 | A null installment takes the median of its row's rounded initial amount, and a null initial amount the median of its rounded installment. Both keys come from the input, before either fill. |
| PaymentImputation.BothNullStayNull | utils/transfomers.py:194-203 | A row with both amounts null keeps both null. |
| PaymentImputation.ImputePaymentsColumns | utils/transfomers.py:205 | A frame without helper columns comes back with its own columns in their order. |
| PaymentImputation.FitPayments | utils/transfomers.py:170-186 | Fit fails exactly when rounding either amount column fails, with that error, and then keeps the old dictionaries; otherwise it stores the fitted medians. |
| PaymentImputation.FitThenTransform | utils/transfomers.py:170-205 | After a successful fit, transform fails on exactly the frames fit would fail on. |
| PaymentImputation.CustomPaymentImputer.constructor | utils/transfomers.py:165-167 | Both dictionaries start empty. |
| PaymentImputation.CustomPaymentImputer.Fit | utils/transfomers.py:170-186 | Raises what rounding raises and keeps the old dictionaries; otherwise stores the fitted medians. |
| PaymentImputation.CustomPaymentImputer.Transform | utils/transfomers.py:188-205 | The result is a fresh frame, equal to `ImputePayments` on success; otherwise the error is `ImputePayments`' error. |
| FeatureGeneration.Column | utils/transfomers.py:219-221 | `X[c]` returns the column exactly when it exists and raises a KeyError naming it otherwise. |
| FeatureGeneration.MulCell | utils/transfomers.py:219 | A product is null exactly when an operand is null; otherwise it is the product of the two numbers. |
| FeatureGeneration.AddCell | utils/transfomers.py:221 | A sum is null exactly when an operand is null; otherwise minus the first operand it gives the second. |
| FeatureGeneration.RatioCell | utils/transfomers.py:220 | `bedroom / (bath + 1)` times `bath + 1` gives bedroom back. It is null for a null operand or a zero divisor. |
| FeatureGeneration.AreaXBedroomStep | utils/transfomers.py:219 | Succeeds exactly when area and bedroom are present and hold no string. Otherwise the first missing column's KeyError, else a TypeError. |
| FeatureGeneration.BedBathRatioStep | utils/transfomers.py:220 | Succeeds exactly when bath is present and holds no string; otherwise a KeyError, else a TypeError. |
| FeatureGeneration.TotalPaymentsStep | utils/transfomers.py:221 | Succeeds exactly when all three operands are present and hold no string. Otherwise the first missing one's KeyError, else a TypeError. |
| FeatureGeneration.GenerateFeatures | utils/transfomers.py:215-224 | On success the frame is well formed and has the input's height. |
| FeatureGeneration.AddedKeepsReadable | utils/transfomers.py:219-221 | Adding a feature column does not change whether an operand column is usable. |
| FeatureGeneration.FeatureErrors | utils/transfomers.py:215-224 | transform succeeds exactly when all six operand columns exist and hold no string. Each possible error is characterized exactly, in the order the three assignments raise them. |
| FeatureGeneration.FeatureFrame | utils/transfomers.py:215-224 | On success, each feature not yet a column is appended and all three are computed from the input's own columns. `remaining_installments` is dropped, and nothing else changes. |
| FeatureGeneration.FeatureKeeps | utils/transfomers.py:223 | Columns other than the three features and `remaining_installments` come out unchanged, and `remaining_installments` is gone. |
| FeatureGeneration.FeatureCells | utils/transfomers.py:219-221 | Row by row, the three features are the product, the ratio and the total of that row's own cells. |
| FeatureGeneration.Transform | utils/transfomers.py:215-224 | The result is a fresh frame, equal to `GenerateFeatures` on success; otherwise the error is `GenerateFeatures`' error. |
| TypeField.LowerChar | static/real-estate.js:9 | Upper-case ASCII letters move to lower case; every other character is kept. |
| TypeField.Lower | static/real-estate.js:9 | `toLowerCase()` keeps the length and leaves no upper-case ASCII letter. |
| TypeField.IncludesIff | static/real-estate.js:14 | `Includes`, the model of `String.includes`, is true exactly when the substring occurs at some position. |
| TypeField.MatchCount | static/real-estate.js:12-17 | The count never exceeds the number of options. |
| TypeField.MatchCountPositive | static/real-estate.js:12-19 | The count is positive exactly when some option, lower-cased, contains the input. |
| TypeField.EmptyMatchesAll | static/real-estate.js:14 | The empty input is contained in every option. |
| TypeField.InputMarkers | static/real-estate.js:19-27 | Under `Markers`, the class changes of lines 19-27, a non-empty input ends with exactly one marker, the valid one exactly when some option contains it. An empty input ends with neither, and other classes are untouched. |
| TypeField.TypeInput.constructor | static/real-estate.js:6 | The box looked up on page load keeps whatever text and classes the page gave it; no contract depends on them. |
| TypeField.TypeInput.OnInput | static/real-estate.js:8-28 | After the handler the classes are the markers for the lower-cased text and the loop's match count; the text is unchanged. |
| PredictionForm.OrZero | static/real-estate.js:82-83 | `parseFloat(..) \|\| 0` keeps a number that parsed and gives 0 for NaN. |
| PredictionForm.OrZeroInt | static/real-estate.js:84 | `parseInt(..) \|\| 0` keeps an integer that parsed and gives 0 for NaN. |
| PredictionForm.BuildPayload | static/real-estate.js:76-88 | Only the three payment fields fall back to 0. Area, bedrooms and bath carry their parse result, NaN included. Text fields and the purpose pass through. |
| PredictionForm.DecimalString | static/real-estate.js:115 | A status in a template literal is a non-empty string of digits with no leading zero. |
| PredictionForm.DecimalStringValue | static/real-estate.js:115 | Those digits read back as the status. |
| PredictionForm.Shown | static/real-estate.js:158 | `error.message \|\| 'Unknown error occurred'` is never empty and keeps a non-empty message. |
| PredictionForm.Settle | static/real-estate.js:112-148 | The area reaches the success state exactly for an ok response whose body parses and has `success` set. It then shows the parsed prediction and, beside it, the prediction times 100000 in rupees (NaN when the prediction is NaN). Every other outcome ends in the error state with a non-empty message. |
| PredictionForm.SettleFailures | static/real-estate.js:94-158 | `Thrown` gives the error each throw path of the try block raises, and the messages shown are: a network error's or a JSON parse error's own message, through `error.message \|\| 'Unknown error occurred'`; a timeout's fixed text; `Server error: <status> - <body>` for a non-ok status; `data.error` when it is non-empty; and the default text otherwise. |
| PredictionForm.ResultArea.constructor | static/real-estate.js:3 | The result area looked up on page load keeps whatever class, visibility and content the page gave it; no contract depends on them. |
| PredictionForm.ResultArea.Show | static/real-estate.js:65-73 | Setting the class and the content changes exactly those, and records the view shown. |
| PredictionForm.Submit | static/real-estate.js:47-177 | With no purpose: the alert, nothing posted, the page untouched. With no result area: nothing posted. Otherwise the payload is posted, and the area is displayed, shows loading, then the settled view with the success or error class. |

## Left out

- `FrequencyEncoder` turning a non-DataFrame input into a DataFrame (lines 10-11 and 20-21) is not modelled: the model's input is always a frame.
- The pandas statistics of `fit` are inputs of the model rather than computed by it: `value_counts` aside, these are groupby with mode or median (lines 53, 56 and 178-184). They are `GroupStats` for `CustomImputer` and `PaymentTables` for `CustomPaymentImputer`. For the location columns, `GroupStats` holds what each `groupby` iteration yields: the groups in order, each with its mode, leaving out groups without one. The model does build the tagged dictionaries from these, as the comprehensions do, and proves how `fit` keys, tags, combines and installs them, and which errors it raises on the way.
- `Imputation.CustomImputer.Fit`: a groupby on a column that exists but holds only nulls, or mixed types, is not distinguished from any other groupby, because the statistics are given.
- Floating point is modelled as exact real arithmetic. Frequencies, medians, products and ratios are exact; NaN is a null cell; rounding is exact half-to-even.
- `FeatureGeneration.RatioCell`: where `bath + 1` is 0, pandas yields plus or minus infinity, or NaN for 0/0. The model gives a null cell, because infinities are not in the cell type.
- `FeatureGeneration.TotalPaymentsStep`, `FeatureGeneration.AreaXBedroomStep` and `FeatureGeneration.BedBathRatioStep`: a string column in pandas arithmetic can also mean concatenation or repetition instead of a TypeError. A string area times an integer bedroom column repeats strings, and a string paired with a null operand gives NaN on pandas' object path. The model treats any string operand as a TypeError.
- `PaymentImputation.RoundColumn`: pandas raises TypeError from `round` on any column of object dtype, even one holding only numbers and nulls. The model has no dtypes and raises only for a column holding a string.
- `CustomImputer.__init__`'s default switches (line 32, all True) are not modelled: the constructor takes the four switches as arguments.
- `FeatureGeneration.fit` (line 212-213) does nothing and returns the estimator, so it has no member.
- The `__init__` methods' `self` bookkeeping and the scikit-learn base classes (`get_params` and the like) are not part of this model.
- `CustomImputer`'s row lambdas read cells by label. A label that is missing only for the row in question cannot happen in a frame, so the KeyError is raised per column before any row is filled.
- `TypeField.LowerChar` and `TypeField.Lower`: `toLowerCase()` is modelled on ASCII letters only. Unicode case mapping is not modelled.
- `PredictionForm.Submit`: overlapping submissions are not modelled. The handler waits at lines 107, 113 and 118 and nothing disables the form, so a second submit can start while the first waits; the area could then show two loading views in a row, or end on the older request's view. The model runs each call to the end before the next begins, and its history of shown views holds only under that assumption.
- `PredictionForm.Submit`: the network exchange, the 30-second timer and their race are given as the outcome that won (`Outcome`). The request that loses the race keeps running, and the model does not follow it.
- `parseFloat` and `parseInt` on the input fields and on `data.prediction` are given as their results, with None for NaN. String parsing is not modelled.
- `PredictionForm.SettleFailures`: a `data.error` that is not a string is not modelled. The model's `error` field is an optional string, and the source would display a truthy non-string's conversion.
- The HTML markup of the three states, `toLocaleString` number formatting, `console.log` and `console.error`, `e.preventDefault()` and the reload button's `location.reload()` have no effect the model tracks. A view records only the numbers or message it displays.
- The default field values set on page load (lines 31-44) are not modelled: they are the starting contents of the inputs, which `Submit` takes as given.
- `resultDiv` is looked up once at page load. The model passes the element, or its absence, to each submit.

=== FILE: custom_imputer.dfy ===
/** CustomImputer (utils/transfomers.py): fit stores group modes and medians;
    transform fills null cells of type, bedroom, bath and the three location
    columns from those tables, column after column, on a copy of the frame.
    The group statistics themselves (pandas groupby with mode or median) are
    inputs of the model. */
module Imputation {
  import opened Wrappers
  import opened Table

  const TypeCol: Col := "type"
  const AreaCol: Col := "area(sqft)"
  const BedroomCol: Col := "bedroom"
  const BathCol: Col := "bath"
  const LocationCol: Col := "location"
  const CityCol: Col := "location_city"
  const ProvinceCol: Col := "location_province"

  /** A key of the location tables: the tag of the grouping and the group's
      value, or pair of values. */
  datatype GroupKey = Single(tag: string, key: Value) | Pair(tag: string, first: Value, second: Value)

  /** The fitted lookup tables. Type modes and medians may be null (an empty
      mode, or the median of an all-null group); location modes never are. */
  datatype Tables = Tables(
    typeModeByArea: map<Value, Cell>,
    bedMedians: map<(Value, Value), Cell>,
    bathMedians: map<(Value, Value), Cell>,
    locModes: map<GroupKey, Value>,
    cityModes: map<GroupKey, Value>,
    provinceModes: map<GroupKey, Value>)

  datatype Flags = Flags(imputeType: bool, imputeBed: bool, imputeBath: bool, imputeLocations: bool)

  /** A group key made of row cells; a null cell never matches a group, as
      groupby drops null keys. */
  function PairKey(a: Cell, b: Cell): (k: Option<(Value, Value)>)
    ensures k.Some? <==> a.Some? && b.Some?
    ensures k.Some? ==> k.value == (a.value, b.value)
  {
    if a.Some? && b.Some? then Some((a.value, b.value)) else None
  }

  function TagKey(tag: string, a: Cell): (k: Option<GroupKey>)
    ensures k.Some? <==> a.Some?
    ensures k.Some? ==> k.value == Single(tag, a.value)
  {
    if a.Some? then Some(Single(tag, a.value)) else None
  }

  function TagPairKey(tag: string, a: Cell, b: Cell): (k: Option<GroupKey>)
    ensures k.Some? <==> a.Some? && b.Some?
    ensures k.Some? ==> k.value == Pair(tag, a.value, b.value)
  {
    if a.Some? && b.Some? then Some(Pair(tag, a.value, b.value)) else None
  }

  /** `table.get(key, default)`. */
  function Lookup<K>(table: map<K, Cell>, key: Option<K>, default: Cell): (r: Cell)
    ensures key.Some? && key.value in table ==> r == table[key.value]
    ensures key.None? || key.value !in table ==> r == default
  {
    if key.Some? && key.value in table then table[key.value] else default
  }

  /** `table.get(key, default)` on a table of modes. */
  function LookupMode(table: map<GroupKey, Value>, key: Option<GroupKey>, default: Cell): (r: Cell)
    ensures key.Some? && key.value in table ==> r == Some(table[key.value])
    ensures key.None? || key.value !in table ==> r == default
  {
    if key.Some? && key.value in table then Some(table[key.value]) else default
  }

  predicate Hits(table: map<GroupKey, Value>, key: Option<GroupKey>) {
    key.Some? && key.value in table
  }

  /** Reference reading of a fallback chain: the mode of the first key of the
      list found in the table, or the default when none is. */
  function FirstHit(table: map<GroupKey, Value>, keys: seq<Option<GroupKey>>, default: Cell): Cell {
    if keys == [] then default
    else if Hits(table, keys[0]) then Some(table[keys[0].value])
    else FirstHit(table, keys[1..], default)
  }

  /** The first key found decides, whatever follows it. */
  lemma {:induction false} FirstHitPicksFirst(table: map<GroupKey, Value>, keys: seq<Option<GroupKey>>, default: Cell, j: nat)
    requires j < |keys| && Hits(table, keys[j])
    requires forall i :: 0 <= i < j ==> !Hits(table, keys[i])
    ensures FirstHit(table, keys, default) == Some(table[keys[j].value])
  {
    if j > 0 {
      FirstHitPicksFirst(table, keys[1..], default, j - 1);
    }
  }

  /** When no key is found the default comes back. */
  lemma {:induction false} FirstHitMisses(table: map<GroupKey, Value>, keys: seq<Option<GroupKey>>, default: Cell)
    requires forall i :: 0 <= i < |keys| ==> !Hits(table, keys[i])
    ensures FirstHit(table, keys, default) == default
  {
    if keys != [] {
      FirstHitMisses(table, keys[1..], default);
    }
  }

  /** A chain with a null default yields null exactly when no key is found. */
  lemma {:induction false} FirstHitNull(table: map<GroupKey, Value>, keys: seq<Option<GroupKey>>)
    ensures FirstHit(table, keys, None).None? <==> forall i :: 0 <= i < |keys| ==> !Hits(table, keys[i])
  {
    if keys != [] {
      FirstHitNull(table, keys[1..]);
      assert forall i :: 1 <= i < |keys| ==> keys[i] == keys[1..][i - 1];
    }
  }

  datatype LocColumn = Loc | LocCity | LocProvince

  /** The cell a location rule fills. */
  function Own(col: LocColumn, loc: Cell, city: Cell, prov: Cell): Cell {
    match col
    case Loc => loc
    case LocCity => city
    case LocProvince => prov
  }

  function ModesFor(t: Tables, col: LocColumn): map<GroupKey, Value> {
    match col
    case Loc => t.locModes
    case LocCity => t.cityModes
    case LocProvince => t.provinceModes
  }

  /** The keys tried for a null cell of col, most specific first. */
  function Chain(col: LocColumn, loc: Cell, city: Cell, prov: Cell): (keys: seq<Option<GroupKey>>)
    ensures |keys| == 3
  {
    match col
    case Loc => [TagPairKey("city_prov", city, prov), TagKey("city", city), TagKey("prov", prov)]
    case LocCity => [TagPairKey("loc_prov", loc, prov), TagKey("loc", loc), TagKey("prov", prov)]
    case LocProvince => [TagPairKey("loc_city", loc, city), TagKey("city", city), TagKey("loc", loc)]
  }

  /** `_impute_location(row, col)`: a non-null cell is returned as it is; a
      null one takes the mode of the first key of its chain that the table
      holds, and stays null when none is held. */
  function ImputeLocation(t: Tables, col: LocColumn, loc: Cell, city: Cell, prov: Cell): (r: Cell)
    ensures Own(col, loc, city, prov).Some? ==> r == Own(col, loc, city, prov)
  {
    if col == Loc && loc.None? then
      LookupMode(t.locModes, TagPairKey("city_prov", city, prov),
        LookupMode(t.locModes, TagKey("city", city),
          LookupMode(t.locModes, TagKey("prov", prov), loc)))
    else if col == LocCity && city.None? then
      LookupMode(t.cityModes, TagPairKey("loc_prov", loc, prov),
        LookupMode(t.cityModes, TagKey("loc", loc),
          LookupMode(t.cityModes, TagKey("prov", prov), city)))
    else if col == LocProvince && prov.None? then
      LookupMode(t.provinceModes, TagPairKey("loc_city", loc, city),
        LookupMode(t.provinceModes, TagKey("city", city),
          LookupMode(t.provinceModes, TagKey("loc", loc), prov)))
    else
      Own(col, loc, city, prov)
  }

  /** A null location cell takes the mode of the first key of its chain the
      table holds; it stays null exactly when it was null and none of the
      three keys is held. */
  lemma ImputeLocationFollowsChain(t: Tables, col: LocColumn, loc: Cell, city: Cell, prov: Cell)
    ensures Own(col, loc, city, prov).None? ==>
      ImputeLocation(t, col, loc, city, prov) == FirstHit(ModesFor(t, col), Chain(col, loc, city, prov), None)
    ensures ImputeLocation(t, col, loc, city, prov).None? <==>
      && Own(col, loc, city, prov).None?
      && forall i :: 0 <= i < 3 ==> !Hits(ModesFor(t, col), Chain(col, loc, city, prov)[i])
  {
    var keys := Chain(col, loc, city, prov);
    var m := ModesFor(t, col);
    assert keys[1..][1..] == [keys[2]] && [keys[2]][1..] == [];
    assert FirstHit(m, keys[1..][1..], None) == LookupMode(m, keys[2], None);
    FirstHitNull(m, keys);
  }

  /** The per-row rules of transform. */
  datatype Rule = TypeRule | BedroomRule | BathRule | LocationRule(which: LocColumn)

  function Target(rule: Rule): Col {
    match rule
    case TypeRule => TypeCol
    case BedroomRule => BedroomCol
    case BathRule => BathCol
    case LocationRule(Loc) => LocationCol
    case LocationRule(LocCity) => CityCol
    case LocationRule(LocProvince) => ProvinceCol
  }

  /** The other columns a rule reads from a row whose target cell is null, in
      the order Python evaluates them. */
  function Reads(rule: Rule): seq<Col> {
    match rule
    case TypeRule => [AreaCol]
    case BedroomRule => [AreaCol, BathCol]
    case BathRule => [AreaCol, BedroomCol]
    case LocationRule(Loc) => [CityCol, ProvinceCol]
    case LocationRule(LocCity) => [LocationCol, ProvinceCol]
    case LocationRule(LocProvince) => [LocationCol, CityCol]
  }

  /** The first of cols the frame lacks. */
  function FirstMissing(f: Frame, cols: seq<Col>): (r: Option<Col>)
    ensures r.None? <==> forall c :: c in cols ==> c in f.data
    ensures r.Some? ==> r.value in cols && r.value !in f.data
    ensures r.Some? ==> exists j :: 0 <= j < |cols| && cols[j] == r.value && forall k :: 0 <= k < j ==> cols[k] in f.data
  {
    if cols == [] then None
    else if cols[0] !in f.data then Some(cols[0])
    else FirstMissing(f, cols[1..])
  }

  ghost predicate CanRead(f: Frame, rule: Rule) {
    Target(rule) in f.data && forall c :: c in Reads(rule) ==> c in f.data
  }

  /** The type lambda: a null type takes the mode of its area's group. */
  function TypeCell(t: Tables, area: Cell, typ: Cell): Cell {
    if typ.None? then Lookup(t.typeModeByArea, area, typ) else typ
  }

  /** The bedroom lambda: a null bedroom count takes the median of its
      (area, bath) group. */
  function BedroomCell(t: Tables, area: Cell, bath: Cell, bed: Cell): Cell {
    if bed.None? then Lookup(t.bedMedians, PairKey(area, bath), bed) else bed
  }

  /** The bath lambda: a null bath count takes the median of its
      (area, bedroom) group. */
  function BathCell(t: Tables, area: Cell, bed: Cell, bath: Cell): Cell {
    if bath.None? then Lookup(t.bathMedians, PairKey(area, bed), bath) else bath
  }

  /** The lambda of a rule applied to row i. */
  function RuleCell(t: Tables, rule: Rule, f: Frame, i: nat): Cell
    requires f.Valid() && CanRead(f, rule) && i < f.height
  {
    match rule
    case TypeRule => TypeCell(t, f.data[AreaCol][i], f.data[TypeCol][i])
    case BedroomRule => BedroomCell(t, f.data[AreaCol][i], f.data[BathCol][i], f.data[BedroomCol][i])
    case BathRule => BathCell(t, f.data[AreaCol][i], f.data[BedroomCol][i], f.data[BathCol][i])
    case LocationRule(w) =>
      assert LocationCol in Reads(rule) + [Target(rule)] && CityCol in Reads(rule) + [Target(rule)];
      ImputeLocation(t, w, f.data[LocationCol][i], f.data[CityCol][i], f.data[ProvinceCol][i])
  }

  /** The frames agree except on null cells of the target columns. */
  ghost predicate FillsOnlyNulls(f: Frame, g: Frame, targets: set<Col>)
    requires f.Valid() && g.Valid()
  {
    && g.columns == f.columns && g.height == f.height
    && (forall c :: c in f.data && c !in targets ==> g.data[c] == f.data[c])
    && (forall c, i :: c in f.data && 0 <= i < f.height && f.data[c][i].Some? ==> g.data[c][i] == f.data[c][i])
  }

  /** The lambda keeps a non-null target cell. */
  lemma RuleCellKeeps(t: Tables, rule: Rule, f: Frame, i: nat)
    requires f.Valid() && CanRead(f, rule) && i < f.height && f.data[Target(rule)][i].Some?
    ensures RuleCell(t, rule, f, i) == f.data[Target(rule)][i]
  {
    if rule.LocationRule? {
      assert LocationCol in Reads(rule) + [Target(rule)] && CityCol in Reads(rule) + [Target(rule)];
      assert Own(rule.which, f.data[LocationCol][i], f.data[CityCol][i], f.data[ProvinceCol][i]) == f.data[Target(rule)][i];
    }
  }

  /** One `if ...: X[col] = X.apply(...)` step of transform: nothing happens
      unless the target column exists and holds a null; then a column the
      lambda reads that the frame lacks raises KeyError; otherwise the
      target column is rewritten row by row and no column is added. */
  function ApplyRule(t: Tables, rule: Rule, f: Frame): (r: Result<Frame, TransformError>)
    requires f.Valid()
    ensures r.Err? <==> (Target(rule) in f.data && None in f.data[Target(rule)]
      && FirstMissing(f, Reads(rule)).Some?)
    ensures r.Err? ==> r.error == KeyError(FirstMissing(f, Reads(rule)).value)
    ensures r.Ok? ==> r.value.Valid() && r.value.columns == f.columns && r.value.height == f.height
  {
    var target := Target(rule);
    if target !in f.data || None !in f.data[target] then Ok(f)
    else if FirstMissing(f, Reads(rule)).Some? then Err(KeyError(FirstMissing(f, Reads(rule)).value))
    else Ok(WithColumn(f, target, seq(f.height, i requires 0 <= i < f.height => RuleCell(t, rule, f, i))))
  }

  /** A successful step changes only null cells of its target, and gives
      each of them the value of the lambda on its row. */
  lemma ApplyRuleCells(t: Tables, rule: Rule, f: Frame)
    requires f.Valid() && ApplyRule(t, rule, f).Ok?
    ensures FillsOnlyNulls(f, ApplyRule(t, rule, f).value, {Target(rule)})
    ensures Target(rule) in f.data ==> forall i :: 0 <= i < f.height && f.data[Target(rule)][i].None? ==>
      CanRead(f, rule) && ApplyRule(t, rule, f).value.data[Target(rule)][i] == RuleCell(t, rule, f, i)
  {
    var target := Target(rule);
    if target in f.data && None in f.data[target] {
      forall i | 0 <= i < f.height && f.data[target][i].Some?
        ensures ApplyRule(t, rule, f).value.data[target][i] == f.data[target][i]
      {
        RuleCellKeeps(t, rule, f, i);
      }
    }
  }

  /** Which rules transform runs, in its order, each with the flag that
      switches it on. */
  function Plan(flags: Flags): seq<(bool, Rule)> {
    [ (flags.imputeType, TypeRule),
      (flags.imputeBed, BedroomRule),
      (flags.imputeBath, BathRule),
      (flags.imputeLocations, LocationRule(Loc)),
      (flags.imputeLocations, LocationRule(LocCity)),
      (flags.imputeLocations, LocationRule(LocProvince)) ]
  }

  /** The targets of the enabled steps. */
  function TargetsOf(steps: seq<(bool, Rule)>): set<Col> {
    set i | 0 <= i < |steps| && steps[i].0 :: Target(steps[i].1)
  }

  function StepOf(t: Tables, step: (bool, Rule), f: Frame): (r: Result<Frame, TransformError>)
    requires f.Valid()
  {
    if step.0 then ApplyRule(t, step.1, f) else Ok(f)
  }

  /** Runs the enabled steps one after the other; the first KeyError stops
      the run, and it names a column that an enabled step reads and the
      frame lacks. */
  function RunSteps(t: Tables, steps: seq<(bool, Rule)>, f: Frame): (r: Result<Frame, TransformError>)
    requires f.Valid()
    ensures r.Ok? ==> r.value.Valid() && r.value.columns == f.columns && r.value.height == f.height
    ensures r.Err? ==> r.error.KeyError? && r.error.col !in f.data
    ensures r.Err? ==> exists i :: 0 <= i < |steps| && steps[i].0 && r.error.col in Reads(steps[i].1)
  {
    if steps == [] then Ok(f)
    else
      var g :- StepOf(t, steps[0], f);
      var r := RunSteps(t, steps[1..], g);
      assert r.Err? ==> exists i :: 1 <= i < |steps| && steps[i].0 && r.error.col in Reads(steps[i].1) by {
        if r.Err? {
          var j :| 0 <= j < |steps[1..]| && steps[1..][j].0 && r.error.col in Reads(steps[1..][j].1);
          assert steps[1..][j] == steps[j + 1];
        }
      }
      r
  }

  function StepTargets(step: (bool, Rule)): set<Col> {
    if step.0 then {Target(step.1)} else {}
  }

  lemma TargetsOfCons(steps: seq<(bool, Rule)>)
    requires steps != []
    ensures TargetsOf(steps) == StepTargets(steps[0]) + TargetsOf(steps[1..])
  {
    assert forall i :: 1 <= i < |steps| ==> steps[i] == steps[1..][i - 1];
  }

  /** Only null cells of the enabled steps' targets change. */
  lemma {:induction false} RunStepsFills(t: Tables, steps: seq<(bool, Rule)>, f: Frame)
    requires f.Valid() && RunSteps(t, steps, f).Ok?
    ensures FillsOnlyNulls(f, RunSteps(t, steps, f).value, TargetsOf(steps))
  {
    if steps != [] {
      var g := StepOf(t, steps[0], f).value;
      if steps[0].0 {
        ApplyRuleCells(t, steps[0].1, f);
      }
      RunStepsFills(t, steps[1..], g);
      TargetsOfCons(steps);
      FillsOnlyNullsTrans(f, g, RunSteps(t, steps, f).value, StepTargets(steps[0]), TargetsOf(steps[1..]));
    }
  }

  lemma FillsOnlyNullsTrans(f: Frame, g: Frame, h: Frame, s1: set<Col>, s2: set<Col>)
    requires f.Valid() && g.Valid() && h.Valid()
    requires FillsOnlyNulls(f, g, s1) && FillsOnlyNulls(g, h, s2)
    ensures FillsOnlyNulls(f, h, s1 + s2)
  {
  }

  /** The columns transform may fill under the given flags. */
  function Imputed(flags: Flags): (cols: set<Col>)
    ensures cols <= Targets
  {
    (if flags.imputeType then {TypeCol} else {})
    + (if flags.imputeBed then {BedroomCol} else {})
    + (if flags.imputeBath then {BathCol} else {})
    + (if flags.imputeLocations then {LocationCol, CityCol, ProvinceCol} else {})
  }

  const Targets: set<Col> := {TypeCol, BedroomCol, BathCol, LocationCol, CityCol, ProvinceCol}

  const AllReads: set<Col> := {AreaCol, BedroomCol, BathCol, LocationCol, CityCol, ProvinceCol}

  lemma ReadsWithin(rule: Rule)
    ensures forall c :: c in Reads(rule) ==> c in AllReads
  {
  }

  /** The enabled steps of the plan fill exactly the columns the flags name. */
  lemma PlanTargets(flags: Flags)
    ensures TargetsOf(Plan(flags)) == Imputed(flags)
  {
    var p := Plan(flags);
    assert Target(p[0].1) == TypeCol && Target(p[1].1) == BedroomCol && Target(p[2].1) == BathCol;
    assert Target(p[3].1) == LocationCol && Target(p[4].1) == CityCol && Target(p[5].1) == ProvinceCol;
  }

  /** transform: on a copy of the frame, type, bedroom, bath, location,
      location_city and location_province are imputed in that order, each
      step seeing the cells the earlier ones filled. Only null cells of the
      switched-on columns change; rows and columns stay as they were; the
      only failure is a KeyError for a column a switched-on rule reads. */
  function Impute(flags: Flags, t: Tables, f: Frame): (r: Result<Frame, TransformError>)
    requires f.Valid()
    ensures r.Ok? ==> r.value.Valid() && r.value.columns == f.columns && r.value.height == f.height
    ensures r.Err? ==> r.error.KeyError? && r.error.col in AllReads && r.error.col !in f.data
    ensures (forall c :: c in AllReads ==> c in f.data) ==> r.Ok?
  {
    var p := Plan(flags);
    var r := RunSteps(t, p, f);
    assert r.Err? ==> r.error.col in AllReads by {
      if r.Err? {
        var i :| 0 <= i < |p| && p[i].0 && r.error.col in Reads(p[i].1);
        ReadsWithin(p[i].1);
      }
    }
    r
  }

  /** Only null cells of the columns the flags switch on change. */
  lemma ImputeFillsOnlyNulls(flags: Flags, t: Tables, f: Frame)
    requires f.Valid() && Impute(flags, t, f).Ok?
    ensures FillsOnlyNulls(f, Impute(flags, t, f).value, Imputed(flags))
  {
    RunStepsFills(t, Plan(flags), f);
    PlanTargets(flags);
  }

  /** An enabled step gives every row of its target the value of its
      lambda, whether the cell was null or not. */
  lemma StepCell(t: Tables, step: (bool, Rule), f: Frame, g: Frame, i: nat)
    requires f.Valid() && step.0 && StepOf(t, step, f) == Ok(g)
    requires CanRead(f, step.1) && i < f.height
    ensures g.data[Target(step.1)][i] == RuleCell(t, step.1, f, i)
  {
    ApplyRuleCells(t, step.1, f);
    if f.data[Target(step.1)][i].Some? {
      RuleCellKeeps(t, step.1, f, i);
    }
  }

  /** A step leaves every other column as it was. */
  lemma StepKeeps(t: Tables, step: (bool, Rule), f: Frame, g: Frame, c: Col)
    requires f.Valid() && StepOf(t, step, f) == Ok(g)
    requires c in f.data && c != Target(step.1)
    ensures g.Valid() && g.height == f.height && c in g.data && g.data[c] == f.data[c]
  {
    if step.0 {
      ApplyRuleCells(t, step.1, f);
    }
  }

  /** A run that succeeds ran its first step successfully and went on from
      that step's frame. */
  lemma RunStepsHead(t: Tables, steps: seq<(bool, Rule)>, f: Frame)
    requires f.Valid() && steps != [] && RunSteps(t, steps, f).Ok?
    ensures StepOf(t, steps[0], f).Ok? && StepOf(t, steps[0], f).value.Valid()
    ensures RunSteps(t, steps, f) == RunSteps(t, steps[1..], StepOf(t, steps[0], f).value)
  {
  }

  /** The frames after each of the first three steps of a successful run. */
  lemma TraceThree(t: Tables, steps: seq<(bool, Rule)>, f: Frame) returns (f1: Frame, f2: Frame, f3: Frame)
    requires f.Valid() && |steps| >= 3 && RunSteps(t, steps, f).Ok?
    ensures StepOf(t, steps[0], f) == Ok(f1) && f1.Valid()
    ensures StepOf(t, steps[1], f1) == Ok(f2) && f2.Valid()
    ensures StepOf(t, steps[2], f2) == Ok(f3) && f3.Valid()
    ensures RunSteps(t, steps, f) == RunSteps(t, steps[3..], f3)
  {
    RunStepsHead(t, steps, f);
    f1 := StepOf(t, steps[0], f).value;
    RunStepsHead(t, steps[1..], f1);
    f2 := StepOf(t, steps[1], f1).value;
    RunStepsHead(t, steps[2..], f2);
    f3 := StepOf(t, steps[2], f2).value;
    assert steps[1..][1..] == steps[2..] && steps[2..][1..] == steps[3..];
  }

  /** The frames after each step of a successful transform. */
  lemma Trace(flags: Flags, t: Tables, f: Frame) returns (f1: Frame, f2: Frame, f3: Frame, f4: Frame, f5: Frame, f6: Frame)
    requires f.Valid() && Impute(flags, t, f).Ok?
    ensures StepOf(t, (flags.imputeType, TypeRule), f) == Ok(f1) && f1.Valid()
    ensures StepOf(t, (flags.imputeBed, BedroomRule), f1) == Ok(f2) && f2.Valid()
    ensures StepOf(t, (flags.imputeBath, BathRule), f2) == Ok(f3) && f3.Valid()
    ensures StepOf(t, (flags.imputeLocations, LocationRule(Loc)), f3) == Ok(f4) && f4.Valid()
    ensures StepOf(t, (flags.imputeLocations, LocationRule(LocCity)), f4) == Ok(f5) && f5.Valid()
    ensures StepOf(t, (flags.imputeLocations, LocationRule(LocProvince)), f5) == Ok(f6) && f6.Valid()
    ensures Impute(flags, t, f) == Ok(f6)
  {
    var p := Plan(flags);
    assert Impute(flags, t, f) == RunSteps(t, p, f);
    f1, f2, f3 := TraceThree(t, p, f);
    var rest := p[3..];
    assert rest[0] == p[3] && rest[1] == p[4] && rest[2] == p[5] && rest[3..] == [];
    f4, f5, f6 := TraceThree(t, rest, f3);
  }

  /** The bedroom step then the bath step, on the frame the type step left. */
  lemma BedroomBathSteps(t: Tables, f1: Frame, f2: Frame, f3: Frame, i: nat)
    requires f1.Valid() && f2.Valid()
    requires StepOf(t, (true, BedroomRule), f1) == Ok(f2) && StepOf(t, (true, BathRule), f2) == Ok(f3)
    requires AreaCol in f1.data && BedroomCol in f1.data && BathCol in f1.data && i < f1.height
    ensures f3.data[BedroomCol][i] == BedroomCell(t, f1.data[AreaCol][i], f1.data[BathCol][i], f1.data[BedroomCol][i])
    ensures f3.data[BathCol][i] == BathCell(t, f1.data[AreaCol][i], f3.data[BedroomCol][i], f1.data[BathCol][i])
  {
    StepCell(t, (true, BedroomRule), f1, f2, i);
    StepKeeps(t, (true, BedroomRule), f1, f2, AreaCol);
    StepKeeps(t, (true, BedroomRule), f1, f2, BathCol);
    StepCell(t, (true, BathRule), f2, f3, i);
    StepKeeps(t, (true, BathRule), f2, f3, BedroomCol);
  }

  /** A step whose target is neither bedroom nor bath leaves area, bedroom
      and bath as they were. */
  lemma StepKeepsNumeric(t: Tables, step: (bool, Rule), f: Frame, g: Frame)
    requires f.Valid() && StepOf(t, step, f) == Ok(g) && (step.1.TypeRule? || step.1.LocationRule?)
    requires AreaCol in f.data && BedroomCol in f.data && BathCol in f.data
    ensures g.Valid() && g.height == f.height
    ensures AreaCol in g.data && g.data[AreaCol] == f.data[AreaCol]
    ensures BedroomCol in g.data && g.data[BedroomCol] == f.data[BedroomCol]
    ensures BathCol in g.data && g.data[BathCol] == f.data[BathCol]
  {
    StepKeeps(t, step, f, g, AreaCol);
    StepKeeps(t, step, f, g, BedroomCol);
    StepKeeps(t, step, f, g, BathCol);
  }

  /** The bath step sees the bedroom counts the bedroom step filled: a null
      bath is looked up under the row's area and its imputed bedroom count. */
  lemma BedroomThenBath(flags: Flags, t: Tables, f: Frame, i: nat)
    requires f.Valid() && flags.imputeBed && flags.imputeBath
    requires AreaCol in f.data && BedroomCol in f.data && BathCol in f.data && i < f.height
    requires Impute(flags, t, f).Ok?
    ensures var g := Impute(flags, t, f).value;
      && g.data[BedroomCol][i] == BedroomCell(t, f.data[AreaCol][i], f.data[BathCol][i], f.data[BedroomCol][i])
      && g.data[BathCol][i] == BathCell(t, f.data[AreaCol][i], g.data[BedroomCol][i], f.data[BathCol][i])
  {
    var f1, f2, f3, f4, f5, f6 := Trace(flags, t, f);
    StepKeepsNumeric(t, (flags.imputeType, TypeRule), f, f1);
    BedroomBathSteps(t, f1, f2, f3, i);
    StepKeepsNumeric(t, (flags.imputeLocations, LocationRule(Loc)), f3, f4);
    StepKeepsNumeric(t, (flags.imputeLocations, LocationRule(LocCity)), f4, f5);
    StepKeepsNumeric(t, (flags.imputeLocations, LocationRule(LocProvince)), f5, f6);
  }

  /** A step whose target is not a location column leaves all three as
      they were. */
  lemma StepKeepsLocations(t: Tables, step: (bool, Rule), f: Frame, g: Frame)
    requires f.Valid() && StepOf(t, step, f) == Ok(g) && !step.1.LocationRule?
    requires LocationCol in f.data && CityCol in f.data && ProvinceCol in f.data
    ensures g.Valid() && g.height == f.height
    ensures LocationCol in g.data && g.data[LocationCol] == f.data[LocationCol]
    ensures CityCol in g.data && g.data[CityCol] == f.data[CityCol]
    ensures ProvinceCol in g.data && g.data[ProvinceCol] == f.data[ProvinceCol]
  {
    StepKeeps(t, step, f, g, LocationCol);
    StepKeeps(t, step, f, g, CityCol);
    StepKeeps(t, step, f, g, ProvinceCol);
  }

  /** One location step: its own column takes the value of
      `_impute_location` on the row, the other two stay as they were. */
  lemma LocationStep(t: Tables, w: LocColumn, f: Frame, g: Frame, i: nat)
    requires f.Valid() && StepOf(t, (true, LocationRule(w)), f) == Ok(g)
    requires LocationCol in f.data && CityCol in f.data && ProvinceCol in f.data && i < f.height
    ensures g.Valid() && g.height == f.height
    ensures LocationCol in g.data && CityCol in g.data && ProvinceCol in g.data
    ensures Own(w, g.data[LocationCol][i], g.data[CityCol][i], g.data[ProvinceCol][i])
      == ImputeLocation(t, w, f.data[LocationCol][i], f.data[CityCol][i], f.data[ProvinceCol][i])
    ensures w != Loc ==> g.data[LocationCol] == f.data[LocationCol]
    ensures w != LocCity ==> g.data[CityCol] == f.data[CityCol]
    ensures w != LocProvince ==> g.data[ProvinceCol] == f.data[ProvinceCol]
  {
    var step := (true, LocationRule(w));
    StepCell(t, step, f, g, i);
    if w != Loc {
      StepKeeps(t, step, f, g, LocationCol);
    }
    if w != LocCity {
      StepKeeps(t, step, f, g, CityCol);
    }
    if w != LocProvince {
      StepKeeps(t, step, f, g, ProvinceCol);
    }
  }

  /** The three location steps, on the frame the earlier steps left. */
  lemma LocationSteps(t: Tables, f3: Frame, f4: Frame, f5: Frame, f6: Frame, i: nat)
    requires f3.Valid() && f4.Valid() && f5.Valid()
    requires StepOf(t, (true, LocationRule(Loc)), f3) == Ok(f4)
    requires StepOf(t, (true, LocationRule(LocCity)), f4) == Ok(f5)
    requires StepOf(t, (true, LocationRule(LocProvince)), f5) == Ok(f6)
    requires LocationCol in f3.data && CityCol in f3.data && ProvinceCol in f3.data && i < f3.height
    ensures f6.data[LocationCol][i] == ImputeLocation(t, Loc, f3.data[LocationCol][i], f3.data[CityCol][i], f3.data[ProvinceCol][i])
    ensures f6.data[CityCol][i] == ImputeLocation(t, LocCity, f6.data[LocationCol][i], f3.data[CityCol][i], f3.data[ProvinceCol][i])
    ensures f6.data[ProvinceCol][i] == ImputeLocation(t, LocProvince, f6.data[LocationCol][i], f6.data[CityCol][i], f3.data[ProvinceCol][i])
  {
    LocationStep(t, Loc, f3, f4, i);
    LocationStep(t, LocCity, f4, f5, i);
    LocationStep(t, LocProvince, f5, f6, i);
  }

  /** The three location columns are imputed in turn, each seeing the cells
      the previous ones filled: location_city is looked up with the imputed
      location, location_province with both. */
  lemma LocationsInOrder(flags: Flags, t: Tables, f: Frame, i: nat)
    requires f.Valid() && flags.imputeLocations
    requires LocationCol in f.data && CityCol in f.data && ProvinceCol in f.data && i < f.height
    requires Impute(flags, t, f).Ok?
    ensures var g := Impute(flags, t, f).value;
      && g.data[LocationCol][i] == ImputeLocation(t, Loc, f.data[LocationCol][i], f.data[CityCol][i], f.data[ProvinceCol][i])
      && g.data[CityCol][i] == ImputeLocation(t, LocCity, g.data[LocationCol][i], f.data[CityCol][i], f.data[ProvinceCol][i])
      && g.data[ProvinceCol][i] == ImputeLocation(t, LocProvince, g.data[LocationCol][i], g.data[CityCol][i], f.data[ProvinceCol][i])
  {
    var f1, f2, f3, f4, f5, f6 := Trace(flags, t, f);
    StepKeepsLocations(t, (flags.imputeType, TypeRule), f, f1);
    StepKeepsLocations(t, (flags.imputeBed, BedroomRule), f1, f2);
    StepKeepsLocations(t, (flags.imputeBath, BathRule), f2, f3);
    LocationSteps(t, f3, f4, f5, f6, i);
  }

  /** The group statistics fit reads off the training frame with pandas
      groupby: the mode of type per area (null when a group has no mode),
      the median bedroom count per (area, bath) and the median bath count
      per (area, bedroom). For each location column, the groups that
      `groupby` yields over the other two columns, per pair and per single
      column, in its order and each with its mode; a group whose mode is
      empty is left out, as the comprehensions' `if` leaves it out. */
  datatype GroupStats = GroupStats(
    typeModeByArea: map<Value, Cell>,
    bedroomMedianByAreaBath: map<(Value, Value), Cell>,
    bathMedianByAreaBedroom: map<(Value, Value), Cell>,
    locationByCityProvince: seq<((Value, Value), Value)>,
    locationByCity: seq<(Value, Value)>,
    locationByProvince: seq<(Value, Value)>,
    cityByLocationProvince: seq<((Value, Value), Value)>,
    cityByLocation: seq<(Value, Value)>,
    cityByProvince: seq<(Value, Value)>,
    provinceByLocationCity: seq<((Value, Value), Value)>,
    provinceByCity: seq<(Value, Value)>,
    provinceByLocation: seq<(Value, Value)>)

  /** The groups as a dictionary from group to mode, without a tag; a
      later entry wins, as in a dict comprehension. */
  function PairDict(groups: seq<((Value, Value), Value)>): map<(Value, Value), Value>
    decreases |groups|
  {
    if groups == [] then map[] else map[groups[0].0 := groups[0].1] + PairDict(groups[1..])
  }

  function SingleDict(groups: seq<(Value, Value)>): map<Value, Value>
    decreases |groups|
  {
    if groups == [] then map[] else map[groups[0].0 := groups[0].1] + SingleDict(groups[1..])
  }

  /** `{(tag, key): mode for key, val in groupby([a, b])[c] if ...}`. */
  function TagPairs(tag: string, groups: seq<((Value, Value), Value)>): map<GroupKey, Value>
    decreases |groups|
  {
    if groups == [] then map[]
    else map[Pair(tag, groups[0].0.0, groups[0].0.1) := groups[0].1] + TagPairs(tag, groups[1..])
  }

  /** `{(tag, key): mode for key, val in groupby(a)[c] if ...}`. */
  function TagSingles(tag: string, groups: seq<(Value, Value)>): map<GroupKey, Value>
    decreases |groups|
  {
    if groups == [] then map[]
    else map[Single(tag, groups[0].0) := groups[0].1] + TagSingles(tag, groups[1..])
  }

  /** `d = {}` followed by the three `d.update(...)` of one location block. */
  function LocationTable(pairTag: string, pairs: seq<((Value, Value), Value)>,
                         tag1: string, ones: seq<(Value, Value)>,
                         tag2: string, twos: seq<(Value, Value)>): map<GroupKey, Value> {
    map[] + TagPairs(pairTag, pairs) + TagSingles(tag1, ones) + TagSingles(tag2, twos)
  }

  /** The dictionary fit builds for a location column, with the tags its
      comprehensions write. */
  function LocationModes(w: LocColumn, s: GroupStats): map<GroupKey, Value> {
    match w
    case Loc => LocationTable("city_prov", s.locationByCityProvince, "city", s.locationByCity, "prov", s.locationByProvince)
    case LocCity => LocationTable("loc_prov", s.cityByLocationProvince, "loc", s.cityByLocation, "prov", s.cityByProvince)
    case LocProvince => LocationTable("loc_city", s.provinceByLocationCity, "city", s.provinceByCity, "loc", s.provinceByLocation)
  }

  /** Every key of the dictionary carries one of the block's three tags:
      the pair tag on a pair, one of the single tags on a single value. */
  ghost predicate KeysTagged(m: map<GroupKey, Value>, pairTag: string, tag1: string, tag2: string) {
    forall k :: k in m ==> if k.Pair? then k.tag == pairTag else k.tag == tag1 || k.tag == tag2
  }

  /** Each location dictionary holds only keys `_impute_location` asks for. */
  ghost predicate WellTagged(t: Tables) {
    && KeysTagged(t.locModes, "city_prov", "city", "prov")
    && KeysTagged(t.cityModes, "loc_prov", "loc", "prov")
    && KeysTagged(t.provinceModes, "loc_city", "city", "loc")
  }

  /** The tags keep the three groupings apart: a tagged key finds in the
      table exactly what its own grouping holds for the group. */
  lemma LocationTableKeys(pairTag: string, pairs: seq<((Value, Value), Value)>,
                          tag1: string, ones: seq<(Value, Value)>,
                          tag2: string, twos: seq<(Value, Value)>, a: Value, b: Value)
    requires tag1 != tag2
    ensures var m := LocationTable(pairTag, pairs, tag1, ones, tag2, twos);
      && (Pair(pairTag, a, b) in m <==> (a, b) in PairDict(pairs))
      && ((a, b) in PairDict(pairs) ==> m[Pair(pairTag, a, b)] == PairDict(pairs)[(a, b)])
      && (Single(tag1, a) in m <==> a in SingleDict(ones))
      && (a in SingleDict(ones) ==> m[Single(tag1, a)] == SingleDict(ones)[a])
      && (Single(tag2, a) in m <==> a in SingleDict(twos))
      && (a in SingleDict(twos) ==> m[Single(tag2, a)] == SingleDict(twos)[a])
  {
    TagPairsAt(pairTag, pairs, a, b);
    TagSinglesAt(tag1, ones, a);
    TagSinglesAt(tag2, twos, a);
    TagPairsTagged(pairTag, pairs);
    TagSinglesTagged(tag1, ones);
    TagSinglesTagged(tag2, twos);
  }

  /** The table has no key without one of the block's three tags. */
  lemma LocationTableTagged(pairTag: string, pairs: seq<((Value, Value), Value)>,
                            tag1: string, ones: seq<(Value, Value)>,
                            tag2: string, twos: seq<(Value, Value)>)
    ensures KeysTagged(LocationTable(pairTag, pairs, tag1, ones, tag2, twos), pairTag, tag1, tag2)
  {
    TagPairsTagged(pairTag, pairs);
    TagSinglesTagged(tag1, ones);
    TagSinglesTagged(tag2, twos);
  }

  /** A pair group's mode sits under the pair with the block's tag. */
  lemma {:induction false} TagPairsAt(tag: string, groups: seq<((Value, Value), Value)>, a: Value, b: Value)
    ensures Pair(tag, a, b) in TagPairs(tag, groups) <==> (a, b) in PairDict(groups)
    ensures (a, b) in PairDict(groups) ==> TagPairs(tag, groups)[Pair(tag, a, b)] == PairDict(groups)[(a, b)]
    decreases |groups|
  {
    if groups != [] {
      TagPairsAt(tag, groups[1..], a, b);
    }
  }

  /** A single group's mode sits under the value with the block's tag. */
  lemma {:induction false} TagSinglesAt(tag: string, groups: seq<(Value, Value)>, a: Value)
    ensures Single(tag, a) in TagSingles(tag, groups) <==> a in SingleDict(groups)
    ensures a in SingleDict(groups) ==> TagSingles(tag, groups)[Single(tag, a)] == SingleDict(groups)[a]
    decreases |groups|
  {
    if groups != [] {
      TagSinglesAt(tag, groups[1..], a);
    }
  }

  /** Every key of a pair comprehension is a pair with its tag. */
  lemma {:induction false} TagPairsTagged(tag: string, groups: seq<((Value, Value), Value)>)
    ensures forall k :: k in TagPairs(tag, groups) ==> k.Pair? && k.tag == tag
    decreases |groups|
  {
    if groups != [] {
      TagPairsTagged(tag, groups[1..]);
    }
  }

  /** Every key of a single comprehension is a single value with its tag. */
  lemma {:induction false} TagSinglesTagged(tag: string, groups: seq<(Value, Value)>)
    ensures forall k :: k in TagSingles(tag, groups) ==> k.Single? && k.tag == tag
    decreases |groups|
  {
    if groups != [] {
      TagSinglesTagged(tag, groups[1..]);
    }
  }

  /** The table fit installs for a rule. */
  function Install(t: Tables, rule: Rule, s: GroupStats): Tables {
    match rule
    case TypeRule => t.(typeModeByArea := s.typeModeByArea)
    case BedroomRule => t.(bedMedians := s.bedroomMedianByAreaBath)
    case BathRule => t.(bathMedians := s.bathMedianByAreaBedroom)
    case LocationRule(Loc) =>
      t.(locModes := LocationModes(Loc, s))
    case LocationRule(LocCity) =>
      t.(cityModes := LocationModes(LocCity, s))
    case LocationRule(LocProvince) =>
      t.(provinceModes := LocationModes(LocProvince, s))
  }

  /** One `if` block of fit. It runs when its flag is on and the frame has
      the rule's target column; the groupby raises KeyError for the first
      grouping column the frame lacks (the grouping columns are the ones
      the rule reads at transform time). A location table is emptied before
      its groupby runs, so a failed location block leaves it empty. */
  function FitStep(t: Tables, step: (bool, Rule), f: Frame, s: GroupStats): (Option<TransformError>, Tables)
  {
    var rule := step.1;
    if !step.0 || Target(rule) !in f.data then (None, t)
    else if FirstMissing(f, Reads(rule)).Some? then
      (Some(KeyError(FirstMissing(f, Reads(rule)).value)), if rule.LocationRule? then Reset(t, rule.which) else t)
    else (None, Install(t, rule, s))
  }

  /** Installing a location table overwrites whatever emptying it did. */
  lemma InstallAfterReset(t: Tables, w: LocColumn, s: GroupStats)
    ensures Install(Reset(t, w), LocationRule(w), s) == Install(t, LocationRule(w), s)
  {
  }

  /** `self.loc_modes = {}` and its two siblings. */
  function Reset(t: Tables, w: LocColumn): Tables {
    match w
    case Loc => t.(locModes := map[])
    case LocCity => t.(cityModes := map[])
    case LocProvince => t.(provinceModes := map[])
  }

  /** fit: the blocks run in the order of transform's steps; the first
      KeyError stops it and leaves the tables the earlier blocks set. */
  function FitSteps(t: Tables, steps: seq<(bool, Rule)>, f: Frame, s: GroupStats): (r: (Option<TransformError>, Tables))
    ensures r.0.Some? ==> r.0.value.KeyError? && r.0.value.col !in f.data
    decreases |steps|
  {
    if steps == [] then (None, t)
    else
      var (e, t1) := FitStep(t, steps[0], f, s);
      if e.Some? then (e, t1) else FitSteps(t1, steps[1..], f, s)
  }

  /** On a frame with every column, a fit block never fails: it installs
      its table when its flag is on. */
  lemma FitStepClean(t: Tables, step: (bool, Rule), f: Frame, s: GroupStats)
    requires forall c :: c in Targets + AllReads ==> c in f.data
    ensures FitStep(t, step, f, s) == (None, if step.0 then Install(t, step.1, s) else t)
  {
    ReadsWithin(step.1);
    assert Target(step.1) in Targets;
  }

  lemma FitStepsHead(t: Tables, steps: seq<(bool, Rule)>, f: Frame, s: GroupStats)
    requires steps != [] && FitStep(t, steps[0], f, s).0.None?
    ensures FitSteps(t, steps, f, s) == FitSteps(FitStep(t, steps[0], f, s).1, steps[1..], f, s)
  {
  }

  /** On a frame with every column, the numeric blocks of fit succeed. */
  lemma FitNumeric(flags: Flags, t: Tables, f: Frame, s: GroupStats) returns (t3: Tables)
    requires forall c :: c in Targets + AllReads ==> c in f.data
    ensures FitSteps(t, Plan(flags), f, s) == FitSteps(t3, Plan(flags)[3..], f, s)
  {
    var rest := Plan(flags);
    FitStepClean(t, rest[0], f, s);
    FitStepsHead(t, rest, f, s);
    var t1 := FitStep(t, rest[0], f, s).1;
    rest := rest[1..];
    FitStepClean(t1, rest[0], f, s);
    FitStepsHead(t1, rest, f, s);
    var t2 := FitStep(t1, rest[0], f, s).1;
    rest := rest[1..];
    FitStepClean(t2, rest[0], f, s);
    FitStepsHead(t2, rest, f, s);
    t3 := FitStep(t2, rest[0], f, s).1;
    assert rest[1..] == Plan(flags)[3..];
  }

  lemma InstallKeepsLocModes(t: Tables, w: LocColumn, s: GroupStats)
    requires w != Loc
    ensures Install(t, LocationRule(w), s).locModes == t.locModes
  {
  }

  /** On a frame with every column, the location blocks of fit succeed and
      location's table holds the three location groupings. */
  lemma FitLocations(flags: Flags, t3: Tables, f: Frame, s: GroupStats)
    requires flags.imputeLocations
    requires forall c :: c in Targets + AllReads ==> c in f.data
    ensures FitSteps(t3, Plan(flags)[3..], f, s).0.None?
    ensures FitSteps(t3, Plan(flags)[3..], f, s).1.locModes ==
      LocationModes(Loc, s)
  {
    var rest := Plan(flags)[3..];
    assert rest == [(true, LocationRule(Loc)), (true, LocationRule(LocCity)), (true, LocationRule(LocProvince))];
    var t4 := FitEnabledStep(t3, rest, f, s);
    var t5 := FitEnabledStep(t4, rest[1..], f, s);
    var t6 := FitEnabledStep(t5, rest[2..], f, s);
    assert rest[2..][1..] == [];
    InstallKeepsLocModes(t4, LocCity, s);
    InstallKeepsLocModes(t5, LocProvince, s);
  }

  /** On a frame with every column, an enabled fit block installs its table
      and fit goes on with the next block. */
  lemma FitEnabledStep(t: Tables, steps: seq<(bool, Rule)>, f: Frame, s: GroupStats) returns (t1: Tables)
    requires forall c :: c in Targets + AllReads ==> c in f.data
    requires steps != [] && steps[0].0
    ensures t1 == Install(t, steps[0].1, s)
    ensures FitSteps(t, steps, f, s) == FitSteps(t1, steps[1..], f, s)
  {
    FitStepClean(t, steps[0], f, s);
    FitStepsHead(t, steps, f, s);
    t1 := Install(t, steps[0].1, s);
  }

  /** On a frame with every column, fit succeeds and, with the location
      flag on, location's table holds the three location groupings. */
  lemma FitLocationModes(flags: Flags, t: Tables, f: Frame, s: GroupStats)
    requires flags.imputeLocations
    requires forall c :: c in Targets + AllReads ==> c in f.data
    ensures FitSteps(t, Plan(flags), f, s).0.None?
    ensures FitSteps(t, Plan(flags), f, s).1.locModes ==
      LocationModes(Loc, s)
  {
    var t3 := FitNumeric(flags, t, f, s);
    FitLocations(flags, t3, f, s);
  }

  /** The location the fitted groupings give a row with a null location:
      the mode of its (city, province) group, else of its city, else of its
      province, and null when none of these groups has a mode. */
  function GroupedLocation(s: GroupStats, city: Cell, prov: Cell): Cell {
    var byPair, byCity, byProv := PairDict(s.locationByCityProvince), SingleDict(s.locationByCity), SingleDict(s.locationByProvince);
    if city.Some? && prov.Some? && (city.value, prov.value) in byPair then Some(byPair[(city.value, prov.value)])
    else if city.Some? && city.value in byCity then Some(byCity[city.value])
    else if prov.Some? && prov.value in byProv then Some(byProv[prov.value])
    else None
  }

  /** With location's dictionary built from the groupings, the chain of
      tagged lookups reads the groupings in `GroupedLocation`'s order. */
  lemma LocationLookup(t: Tables, s: GroupStats, city: Cell, prov: Cell)
    requires t.locModes == LocationModes(Loc, s)
    ensures ImputeLocation(t, Loc, None, city, prov) == GroupedLocation(s, city, prov)
  {
    var m := t.locModes;
    var provs, cities := SingleDict(s.locationByProvince), SingleDict(s.locationByCity);
    var byProv := if prov.Some? && prov.value in provs then Some(provs[prov.value]) else None;
    var byCity := if city.Some? && city.value in cities then Some(cities[city.value]) else byProv;
    if prov.Some? {
      LocationTableKeys("city_prov", s.locationByCityProvince, "city", s.locationByCity, "prov", s.locationByProvince,
        prov.value, prov.value);
    }
    assert LookupMode(m, TagKey("prov", prov), None) == byProv;
    if city.Some? {
      LocationTableKeys("city_prov", s.locationByCityProvince, "city", s.locationByCity, "prov", s.locationByProvince,
        city.value, if prov.Some? then prov.value else city.value);
    }
    assert LookupMode(m, TagKey("city", city), byProv) == byCity;
    assert LookupMode(m, TagPairKey("city_prov", city, prov), byCity) == GroupedLocation(s, city, prov);
  }

  /** After a fit on a frame with every column, transform fills a null
      location from the groupings fit read. */
  lemma FitThenImputeLocation(flags: Flags, t: Tables, f: Frame, s: GroupStats, city: Cell, prov: Cell)
    requires flags.imputeLocations
    requires forall c :: c in Targets + AllReads ==> c in f.data
    ensures FitSteps(t, Plan(flags), f, s).0.None?
    ensures ImputeLocation(FitSteps(t, Plan(flags), f, s).1, Loc, None, city, prov) == GroupedLocation(s, city, prov)
  {
    FitLocationModes(flags, t, f, s);
    LocationLookup(FitSteps(t, Plan(flags), f, s).1, s, city, prov);
  }

  /** An installed location dictionary, and an emptied one, hold only keys
      `_impute_location` asks for. */
  lemma FitStepTagged(t: Tables, step: (bool, Rule), f: Frame, s: GroupStats)
    requires WellTagged(t)
    ensures WellTagged(FitStep(t, step, f, s).1)
  {
    InstallTagged(t, step.1, s);
    if step.1.LocationRule? {
      ResetTagged(t, step.1.which);
    }
  }

  lemma InstallTagged(t: Tables, rule: Rule, s: GroupStats)
    requires WellTagged(t)
    ensures WellTagged(Install(t, rule, s))
  {
    match rule
    case LocationRule(Loc) =>
      LocationTableTagged("city_prov", s.locationByCityProvince, "city", s.locationByCity, "prov", s.locationByProvince);
    case LocationRule(LocCity) =>
      LocationTableTagged("loc_prov", s.cityByLocationProvince, "loc", s.cityByLocation, "prov", s.cityByProvince);
    case LocationRule(LocProvince) =>
      LocationTableTagged("loc_city", s.provinceByLocationCity, "city", s.provinceByCity, "loc", s.provinceByLocation);
    case _ =>
  }

  lemma ResetTagged(t: Tables, w: LocColumn)
    requires WellTagged(t)
    ensures WellTagged(Reset(t, w))
  {
  }

  /** fit keeps every location dictionary keyed as `_impute_location`
      queries it. */
  lemma {:induction false} FitStepsTagged(t: Tables, steps: seq<(bool, Rule)>, f: Frame, s: GroupStats)
    requires WellTagged(t)
    ensures WellTagged(FitSteps(t, steps, f, s).1)
    decreases |steps|
  {
    if steps != [] {
      FitStepTagged(t, steps[0], f, s);
      FitStepsTagged(FitStep(t, steps[0], f, s).1, steps[1..], f, s);
    }
  }

  /** One `if` block of transform, applied to the copy Y: the first of
      the remaining blocks `steps` of the run. */
  method TransformBlock(Y: DataFrame, t: Tables, enabled: bool, rule: Rule,
                        ghost steps: seq<(bool, Rule)>, ghost r: Result<Frame, TransformError>)
    returns (error: Option<TransformError>)
    requires Y.Valid() && steps != [] && steps[0] == (enabled, rule)
    requires r == RunSteps(t, steps, Y.Contents())
    modifies Y
    ensures Y.Valid()
    ensures error.Some? ==> r == Err(error.value)
    ensures error.None? ==> r == RunSteps(t, steps[1..], Y.Contents())
  {
    RunStepsUnfold(t, steps, Y.Contents());
    var target := Target(rule);
    if enabled && target in Y.data && None in Y.data[target] {
      var f := Y.Contents();
      var missing := FirstMissing(f, Reads(rule));
      if missing.Some? {
        return Some(KeyError(missing.value));
      }
      Y.SetColumn(target, seq(f.height, i requires 0 <= i < f.height => RuleCell(t, rule, f, i)));
    }
    error := None;
  }

  /** The type, bedroom and bath blocks of transform, in that order. */
  method NumericBlocks(Y: DataFrame, t: Tables, flags: Flags, ghost r: Result<Frame, TransformError>)
    returns (error: Option<TransformError>)
    requires Y.Valid() && r == RunSteps(t, Plan(flags), Y.Contents())
    modifies Y
    ensures Y.Valid()
    ensures error.Some? ==> r == Err(error.value)
    ensures error.None? ==> r == RunSteps(t, Plan(flags)[3..], Y.Contents())
  {
    ghost var rest := Plan(flags);
    error := TransformBlock(Y, t, flags.imputeType, TypeRule, rest, r);
    if error.Some? { return; }
    rest := rest[1..];
    error := TransformBlock(Y, t, flags.imputeBed, BedroomRule, rest, r);
    if error.Some? { return; }
    rest := rest[1..];
    error := TransformBlock(Y, t, flags.imputeBath, BathRule, rest, r);
    if error.Some? { return; }
    assert rest[1..] == Plan(flags)[3..];
  }

  /** The three location blocks of transform: location, city, province. */
  method LocationBlocks(Y: DataFrame, t: Tables, flags: Flags, ghost r: Result<Frame, TransformError>)
    returns (error: Option<TransformError>)
    requires Y.Valid() && r == RunSteps(t, Plan(flags)[3..], Y.Contents())
    modifies Y
    ensures Y.Valid()
    ensures error.Some? ==> r == Err(error.value)
    ensures error.None? ==> r == Ok(Y.Contents())
  {
    ghost var rest := Plan(flags)[3..];
    error := TransformBlock(Y, t, flags.imputeLocations, LocationRule(Loc), rest, r);
    if error.Some? { return; }
    rest := rest[1..];
    error := TransformBlock(Y, t, flags.imputeLocations, LocationRule(LocCity), rest, r);
    if error.Some? { return; }
    rest := rest[1..];
    error := TransformBlock(Y, t, flags.imputeLocations, LocationRule(LocProvince), rest, r);
    if error.Some? { return; }
    assert rest[1..] == [];
  }

  lemma RunStepsUnfold(t: Tables, steps: seq<(bool, Rule)>, f: Frame)
    requires f.Valid() && steps != []
    ensures StepOf(t, steps[0], f).Err? ==> RunSteps(t, steps, f) == Err(StepOf(t, steps[0], f).error)
    ensures StepOf(t, steps[0], f).Ok? ==>
      (StepOf(t, steps[0], f).value.Valid() &&
       RunSteps(t, steps, f) == RunSteps(t, steps[1..], StepOf(t, steps[0], f).value))
  {
  }

  lemma FitStepsUnfold(t: Tables, steps: seq<(bool, Rule)>, f: Frame, s: GroupStats)
    requires steps != []
    ensures FitStep(t, steps[0], f, s).0.Some? ==> FitSteps(t, steps, f, s) == FitStep(t, steps[0], f, s)
    ensures FitStep(t, steps[0], f, s).0.None? ==>
      FitSteps(t, steps, f, s) == FitSteps(FitStep(t, steps[0], f, s).1, steps[1..], f, s)
  {
  }

  /** The estimator: its four switches and the tables fit leaves. */
  class CustomImputer {
    var imputeType: bool
    var imputeBed: bool
    var imputeBath: bool
    var imputeLocations: bool
    var typeModeByArea: map<Value, Cell>
    var bedMedians: map<(Value, Value), Cell>
    var bathMedians: map<(Value, Value), Cell>
    var locModes: map<GroupKey, Value>
    var cityModes: map<GroupKey, Value>
    var provinceModes: map<GroupKey, Value>

    function Settings(): Flags
      reads this
    {
      Flags(imputeType, imputeBed, imputeBath, imputeLocations)
    }

    function Fitted(): Tables
      reads this
    {
      Tables(typeModeByArea, bedMedians, bathMedians, locModes, cityModes, provinceModes)
    }

    /** All switches as given, all tables empty. */
    constructor (imputeType: bool, imputeBed: bool, imputeBath: bool, imputeLocations: bool)
      ensures Settings() == Flags(imputeType, imputeBed, imputeBath, imputeLocations)
      ensures Fitted() == Tables(map[], map[], map[], map[], map[], map[])
    {
      this.imputeType, this.imputeBed, this.imputeBath, this.imputeLocations :=
        imputeType, imputeBed, imputeBath, imputeLocations;
      typeModeByArea, bedMedians, bathMedians := map[], map[], map[];
      locModes, cityModes, provinceModes := map[], map[], map[];
    }

    /** One `if` block of fit, for the given rule's table. */
    method FitBlock(X: DataFrame, enabled: bool, rule: Rule, stats: GroupStats) returns (error: Option<TransformError>)
      requires X.Valid()
      modifies this
      ensures Settings() == old(Settings())
      ensures (error, Fitted()) == FitStep(old(Fitted()), (enabled, rule), old(X.Contents()), stats)
    {
      ghost var t0, f := Fitted(), X.Contents();
      if enabled && Target(rule) in X.data {
        if rule.LocationRule? {
          ClearTable(rule.which);
          InstallAfterReset(t0, rule.which, stats);
        }
        var missing := FirstMissing(X.Contents(), Reads(rule));
        if missing.Some? {
          return Some(KeyError(missing.value));
        }
        SetTable(rule, stats);
        assert Fitted() == Install(t0, rule, stats);
      }
      error := None;
    }

    /** `self.loc_modes = {}` and its two siblings. */
    method ClearTable(w: LocColumn)
      modifies this
      ensures Settings() == old(Settings()) && Fitted() == Reset(old(Fitted()), w)
    {
      match w
      case Loc => locModes := map[];
      case LocCity => cityModes := map[];
      case LocProvince => provinceModes := map[];
    }

    /** The assignment that ends a successful block of fit. */
    method SetTable(rule: Rule, stats: GroupStats)
      modifies this
      ensures Settings() == old(Settings()) && Fitted() == Install(old(Fitted()), rule, stats)
    {
      match rule
      case TypeRule => typeModeByArea := stats.typeModeByArea;
      case BedroomRule => bedMedians := stats.bedroomMedianByAreaBath;
      case BathRule => bathMedians := stats.bathMedianByAreaBedroom;
      case LocationRule(Loc) =>
        locModes := LocationModes(Loc, stats);
      case LocationRule(LocCity) =>
        cityModes := LocationModes(LocCity, stats);
      case LocationRule(LocProvince) =>
        provinceModes := LocationModes(LocProvince, stats);
    }

    /** The type, bedroom and bath blocks of fit. */
    method FitNumericBlocks(X: DataFrame, stats: GroupStats, ghost r: (Option<TransformError>, Tables))
      returns (error: Option<TransformError>)
      requires X.Valid() && r == FitSteps(Fitted(), Plan(Settings()), X.Contents(), stats)
      modifies this
      ensures Settings() == old(Settings())
      ensures error.Some? ==> r == (error, Fitted())
      ensures error.None? ==> r == FitSteps(Fitted(), Plan(Settings())[3..], X.Contents(), stats)
    {
      ghost var rest := Plan(Settings());
      FitStepsUnfold(Fitted(), rest, X.Contents(), stats);
      error := FitBlock(X, imputeType, TypeRule, stats);
      if error.Some? { return; }
      rest := rest[1..];
      FitStepsUnfold(Fitted(), rest, X.Contents(), stats);
      error := FitBlock(X, imputeBed, BedroomRule, stats);
      if error.Some? { return; }
      rest := rest[1..];
      FitStepsUnfold(Fitted(), rest, X.Contents(), stats);
      error := FitBlock(X, imputeBath, BathRule, stats);
      if error.Some? { return; }
      assert rest[1..] == Plan(Settings())[3..];
    }

    /** The location, city and province blocks of fit. */
    method FitLocationBlocks(X: DataFrame, stats: GroupStats, ghost r: (Option<TransformError>, Tables))
      returns (error: Option<TransformError>)
      requires X.Valid() && r == FitSteps(Fitted(), Plan(Settings())[3..], X.Contents(), stats)
      modifies this
      ensures Settings() == old(Settings())
      ensures r == (error, Fitted())
    {
      ghost var rest := Plan(Settings())[3..];
      FitStepsUnfold(Fitted(), rest, X.Contents(), stats);
      error := FitBlock(X, imputeLocations, LocationRule(Loc), stats);
      if error.Some? { return; }
      rest := rest[1..];
      FitStepsUnfold(Fitted(), rest, X.Contents(), stats);
      error := FitBlock(X, imputeLocations, LocationRule(LocCity), stats);
      if error.Some? { return; }
      rest := rest[1..];
      FitStepsUnfold(Fitted(), rest, X.Contents(), stats);
      error := FitBlock(X, imputeLocations, LocationRule(LocProvince), stats);
      if error.Some? { return; }
      assert rest[1..] == [];
    }

    /** fit: the blocks for type, bedroom, bath and the three location
        columns, in that order; a KeyError stops it. */
    method Fit(X: DataFrame, stats: GroupStats) returns (error: Option<TransformError>)
      requires X.Valid()
      modifies this
      ensures Settings() == old(Settings())
      ensures (error, Fitted()) == FitSteps(old(Fitted()), Plan(old(Settings())), old(X.Contents()), stats)
    {
      ghost var r := FitSteps(Fitted(), Plan(Settings()), X.Contents(), stats);
      error := FitNumericBlocks(X, stats, r);
      if error.Some? { return; }
      error := FitLocationBlocks(X, stats, r);
    }

    /** transform: copies X, then runs the six blocks in order on the copy;
        X itself is left as it was. */
    method Transform(X: DataFrame) returns (error: Option<TransformError>, Y: DataFrame)
      requires X.Valid()
      ensures fresh(Y) && Y.Valid()
      ensures old(Impute(Settings(), Fitted(), X.Contents())).Ok? ==>
        (error.None? && Y.Contents() == old(Impute(Settings(), Fitted(), X.Contents())).value)
      ensures old(Impute(Settings(), Fitted(), X.Contents())).Err? ==>
        error == Some(old(Impute(Settings(), Fitted(), X.Contents())).error)
    {
      var t := Fitted();
      var flags := Settings();
      ghost var r := Impute(flags, t, X.Contents());
      Y := X.Copy();
      error := NumericBlocks(Y, t, flags, r);
      if error.Some? { return; }
      error := LocationBlocks(Y, t, flags, r);
    }
  }
}

=== FILE: feature_generation.dfy ===
/** FeatureGeneration: three derived columns (area times bedrooms, bedrooms
    per bath-plus-one, and total payments), after which the remaining
    installments column is dropped. The arithmetic is pandas' column-wise
    arithmetic: a null operand gives a null result. */
module FeatureGeneration {
  import opened Wrappers
  import opened Table
  import Imputation
  import PaymentImputation

  const AreaCol: Col := Imputation.AreaCol
  const BedroomCol: Col := Imputation.BedroomCol
  const BathCol: Col := Imputation.BathCol
  const InitialCol: Col := PaymentImputation.InitialCol
  const MonthlyCol: Col := PaymentImputation.MonthlyCol
  const RemainingCol: Col := "remaining_installments"

  const AreaXBedroomCol: Col := "area_x_bedroom"
  const BedBathRatioCol: Col := "bed_bath_ratio"
  const TotalPaymentsCol: Col := "total_payments"

  /** The columns transform reads, in the order it reads them. */
  const Needed: seq<Col> := [AreaCol, BedroomCol, BathCol, InitialCol, MonthlyCol, RemainingCol]

  /** The columns transform adds, in the order it adds them. */
  const Added: seq<Col> := [AreaXBedroomCol, BedBathRatioCol, TotalPaymentsCol]

  /** `X[c]`: the column, or a KeyError. */
  function Column(f: Frame, c: Col): (r: Result<seq<Cell>, TransformError>)
    requires f.Valid()
    ensures r.Ok? <==> c in f.data
    ensures r.Ok? ==> r.value == f.data[c] && |r.value| == f.height
    ensures r.Err? ==> r.error == KeyError(c)
  {
    if c in f.data then Ok(f.data[c]) else Err(KeyError(c))
  }

  function MulCell(a: Cell, b: Cell): (r: Cell)
    requires a.None? || a.value.Num?
    requires b.None? || b.value.Num?
    ensures r.None? <==> a.None? || b.None?
    ensures r.Some? ==> r.value.Num? && r.value.x == a.value.x * b.value.x
  {
    if a.None? || b.None? then None else Some(Num(a.value.x * b.value.x))
  }

  function AddCell(a: Cell, b: Cell): (r: Cell)
    requires a.None? || a.value.Num?
    requires b.None? || b.value.Num?
    ensures r.None? <==> a.None? || b.None?
    ensures r.Some? ==> r.value.Num? && r.value.x - a.value.x == b.value.x
  {
    if a.None? || b.None? then None else Some(Num(a.value.x + b.value.x))
  }

  /** `bedroom / (bath + 1)`; a zero divisor, which pandas turns into an
      infinity or NaN, gives null here. */
  function RatioCell(bed: Cell, bath: Cell): (r: Cell)
    requires bed.None? || bed.value.Num?
    requires bath.None? || bath.value.Num?
    ensures r.None? <==> bed.None? || bath.None? || bath.value.x + 1.0 == 0.0
    ensures r.Some? ==> r.value.Num? && r.value.x * (bath.value.x + 1.0) == bed.value.x
  {
    if bed.None? || bath.None? || bath.value.x + 1.0 == 0.0 then None
    else Some(Num(bed.value.x / (bath.value.x + 1.0)))
  }

  function Products(a: seq<Cell>, b: seq<Cell>): (r: seq<Cell>)
    requires |a| == |b| && Numeric(a) && Numeric(b)
    ensures |r| == |a| && Numeric(r)
  {
    seq(|a|, i requires 0 <= i < |a| => MulCell(a[i], b[i]))
  }

  function Ratios(bed: seq<Cell>, bath: seq<Cell>): (r: seq<Cell>)
    requires |bed| == |bath| && Numeric(bed) && Numeric(bath)
    ensures |r| == |bed|
  {
    seq(|bed|, i requires 0 <= i < |bed| => RatioCell(bed[i], bath[i]))
  }

  function Totals(initial: seq<Cell>, monthly: seq<Cell>, remaining: seq<Cell>): (r: seq<Cell>)
    requires |initial| == |monthly| == |remaining| && Numeric(initial) && Numeric(monthly) && Numeric(remaining)
    ensures |r| == |initial|
  {
    seq(|initial|, i requires 0 <= i < |initial| => AddCell(initial[i], MulCell(monthly[i], remaining[i])))
  }

  /** The column order after `X[c] = ...`: c goes at the end unless it is
      already a column. */
  function Append(cols: seq<Col>, c: Col): (r: seq<Col>)
    ensures c in r && forall d :: d in r <==> d in cols || d == c
  {
    if c in cols then cols else cols + [c]
  }

  /** The column order after the three feature assignments. */
  function AddFeatureColumns(cols: seq<Col>): seq<Col> {
    Append(Append(Append(cols, AreaXBedroomCol), BedBathRatioCol), TotalPaymentsCol)
  }

  /** A column transform can do arithmetic on: present, and no string in it. */
  predicate Readable(f: Frame, c: Col) {
    c in f.data && Numeric(f.data[c])
  }

  /** `X['area_x_bedroom'] = X['area(sqft)'] * X['bedroom']`. */
  function AreaXBedroomStep(f: Frame): (r: Result<Frame, TransformError>)
    requires f.Valid()
    ensures r.Ok? <==> Readable(f, AreaCol) && Readable(f, BedroomCol)
    ensures r.Err? ==>
      r.error == (if AreaCol !in f.data then KeyError(AreaCol)
                  else if BedroomCol !in f.data then KeyError(BedroomCol)
                  else TypeError(AreaXBedroomCol))
    ensures r.Ok? ==> r.value == WithColumn(f, AreaXBedroomCol, Products(f.data[AreaCol], f.data[BedroomCol]))
  {
    var area :- Column(f, AreaCol);
    var bed :- Column(f, BedroomCol);
    if !Numeric(area) || !Numeric(bed) then Err(TypeError(AreaXBedroomCol))
    else Ok(WithColumn(f, AreaXBedroomCol, Products(area, bed)))
  }

  /** `X['bed_bath_ratio'] = X['bedroom'] / (X['bath'] + 1)`, after the
      bedroom column has already been checked for strings. */
  function BedBathRatioStep(f: Frame): (r: Result<Frame, TransformError>)
    requires f.Valid() && Readable(f, BedroomCol)
    ensures r.Ok? <==> Readable(f, BathCol)
    ensures r.Err? ==> r.error == if BathCol !in f.data then KeyError(BathCol) else TypeError(BedBathRatioCol)
    ensures r.Ok? ==> r.value == WithColumn(f, BedBathRatioCol, Ratios(f.data[BedroomCol], f.data[BathCol]))
  {
    var bed := f.data[BedroomCol];
    var bath :- Column(f, BathCol);
    if !Numeric(bath) then Err(TypeError(BedBathRatioCol))
    else Ok(WithColumn(f, BedBathRatioCol, Ratios(bed, bath)))
  }

  /** `X['total_payments'] = X['initial_amount(Lakhs)'] +
      (X['monthly_installment(Lakhs)'] * X['remaining_installments'])`. */
  function TotalPaymentsStep(f: Frame): (r: Result<Frame, TransformError>)
    requires f.Valid()
    ensures r.Ok? <==> Readable(f, InitialCol) && Readable(f, MonthlyCol) && Readable(f, RemainingCol)
    ensures r.Err? ==>
      r.error == (if InitialCol !in f.data then KeyError(InitialCol)
                  else if MonthlyCol !in f.data then KeyError(MonthlyCol)
                  else if RemainingCol !in f.data then KeyError(RemainingCol)
                  else TypeError(TotalPaymentsCol))
    ensures r.Ok? ==>
      r.value == WithColumn(f, TotalPaymentsCol, Totals(f.data[InitialCol], f.data[MonthlyCol], f.data[RemainingCol]))
  {
    var initial :- Column(f, InitialCol);
    var monthly :- Column(f, MonthlyCol);
    var remaining :- Column(f, RemainingCol);
    if !Numeric(monthly) || !Numeric(remaining) || !Numeric(initial) then Err(TypeError(TotalPaymentsCol))
    else Ok(WithColumn(f, TotalPaymentsCol, Totals(initial, monthly, remaining)))
  }

  /** transform on a frame: the three assignments in order, then the drop. */
  function GenerateFeatures(f: Frame): (r: Result<Frame, TransformError>)
    requires f.Valid()
    ensures r.Ok? ==> r.value.Valid() && r.value.height == f.height
  {
    var f1 :- AreaXBedroomStep(f);
    var f2 :- BedBathRatioStep(f1);
    var f3 :- TotalPaymentsStep(f2);
    Ok(DropColumns(f3, {RemainingCol}))
  }

  /** Adding a feature column does not change whether a column transform
      reads is readable. */
  lemma AddedKeepsReadable(f: Frame, c: Col, vals: seq<Cell>, d: Col)
    requires f.Valid() && |vals| == f.height && c in Added && d in Needed
    ensures Readable(WithColumn(f, c, vals), d) == Readable(f, d)
  {
  }

  /** transform succeeds exactly when all six columns it reads are there and
      hold no string. Otherwise the error is that of the first assignment
      that fails: a KeyError for the first absent operand, a TypeError for
      a string in one. */
  lemma FeatureErrors(f: Frame)
    requires f.Valid()
    ensures GenerateFeatures(f).Ok? <==>
      Readable(f, AreaCol) && Readable(f, BedroomCol) && Readable(f, BathCol)
      && Readable(f, InitialCol) && Readable(f, MonthlyCol) && Readable(f, RemainingCol)
    ensures GenerateFeatures(f) == Err(KeyError(AreaCol)) <==> AreaCol !in f.data
    ensures GenerateFeatures(f) == Err(KeyError(BedroomCol)) <==> AreaCol in f.data && BedroomCol !in f.data
    ensures GenerateFeatures(f) == Err(TypeError(AreaXBedroomCol)) <==>
      AreaCol in f.data && BedroomCol in f.data && !(Readable(f, AreaCol) && Readable(f, BedroomCol))
    ensures GenerateFeatures(f) == Err(KeyError(BathCol)) <==>
      Readable(f, AreaCol) && Readable(f, BedroomCol) && BathCol !in f.data
    ensures GenerateFeatures(f) == Err(TypeError(BedBathRatioCol)) <==>
      Readable(f, AreaCol) && Readable(f, BedroomCol) && BathCol in f.data && !Readable(f, BathCol)
    ensures GenerateFeatures(f) == Err(KeyError(InitialCol)) <==>
      Readable(f, AreaCol) && Readable(f, BedroomCol) && Readable(f, BathCol) && InitialCol !in f.data
    ensures GenerateFeatures(f) == Err(KeyError(MonthlyCol)) <==>
      Readable(f, AreaCol) && Readable(f, BedroomCol) && Readable(f, BathCol) && InitialCol in f.data
      && MonthlyCol !in f.data
    ensures GenerateFeatures(f) == Err(KeyError(RemainingCol)) <==>
      Readable(f, AreaCol) && Readable(f, BedroomCol) && Readable(f, BathCol) && InitialCol in f.data
      && MonthlyCol in f.data && RemainingCol !in f.data
    ensures GenerateFeatures(f) == Err(TypeError(TotalPaymentsCol)) <==>
      Readable(f, AreaCol) && Readable(f, BedroomCol) && Readable(f, BathCol) && InitialCol in f.data
      && MonthlyCol in f.data && RemainingCol in f.data
      && !(Readable(f, InitialCol) && Readable(f, MonthlyCol) && Readable(f, RemainingCol))
  {
    var r1 := AreaXBedroomStep(f);
    if r1.Ok? {
      var f1 := r1.value;
      AddedKeepsReadable(f, AreaXBedroomCol, Products(f.data[AreaCol], f.data[BedroomCol]), BathCol);
      AddedKeepsReadable(f, AreaXBedroomCol, Products(f.data[AreaCol], f.data[BedroomCol]), BedroomCol);
      var r2 := BedBathRatioStep(f1);
      if r2.Ok? {
        var f2 := r2.value;
        var ratios := Ratios(f1.data[BedroomCol], f1.data[BathCol]);
        AddedKeepsReadable(f1, BedBathRatioCol, ratios, InitialCol);
        AddedKeepsReadable(f1, BedBathRatioCol, ratios, MonthlyCol);
        AddedKeepsReadable(f1, BedBathRatioCol, ratios, RemainingCol);
        AddedKeepsReadable(f, AreaXBedroomCol, Products(f.data[AreaCol], f.data[BedroomCol]), InitialCol);
        AddedKeepsReadable(f, AreaXBedroomCol, Products(f.data[AreaCol], f.data[BedroomCol]), MonthlyCol);
        AddedKeepsReadable(f, AreaXBedroomCol, Products(f.data[AreaCol], f.data[BedroomCol]), RemainingCol);
      }
    }
  }

  /** A successful transform appends each feature that is not yet a column
      (and overwrites one that is), computing all three from the input's own
      columns, then drops remaining installments. */
  lemma FeatureFrame(f: Frame) returns (g: Frame)
    requires f.Valid() && GenerateFeatures(f).Ok?
    ensures GenerateFeatures(f) == Ok(g) && g.Valid() && g.height == f.height
    ensures Readable(f, AreaCol) && Readable(f, BedroomCol) && Readable(f, BathCol)
    ensures Readable(f, InitialCol) && Readable(f, MonthlyCol) && Readable(f, RemainingCol)
    ensures g.columns == Without(AddFeatureColumns(f.columns), {RemainingCol})
    ensures g.data == f.data[AreaXBedroomCol := Products(f.data[AreaCol], f.data[BedroomCol])]
                            [BedBathRatioCol := Ratios(f.data[BedroomCol], f.data[BathCol])]
                            [TotalPaymentsCol := Totals(f.data[InitialCol], f.data[MonthlyCol], f.data[RemainingCol])]
                     - {RemainingCol}
  {
    FeatureErrors(f);
    var r1 := AreaXBedroomStep(f);
    var f1 := r1.value;
    assert f1.columns == Append(f.columns, AreaXBedroomCol);
    var r2 := BedBathRatioStep(f1);
    var f2 := r2.value;
    assert f2.columns == Append(f1.columns, BedBathRatioCol);
    var r3 := TotalPaymentsStep(f2);
    var f3 := r3.value;
    assert f3.columns == Append(f2.columns, TotalPaymentsCol);
    g := DropColumns(f3, {RemainingCol});
  }

  /** Every column other than the three features and remaining installments
      comes out as it went in; remaining installments is gone. */
  lemma FeatureKeeps(f: Frame, c: Col)
    requires f.Valid() && GenerateFeatures(f).Ok?
    ensures c in GenerateFeatures(f).value.data <==> (c in f.data || c in Added) && c != RemainingCol
    ensures c in f.data && c !in Added && c != RemainingCol ==> GenerateFeatures(f).value.data[c] == f.data[c]
  {
    var g := FeatureFrame(f);
  }

  /** Row by row: area times bedrooms, bedrooms over bath plus one (null on
      a zero divisor), and initial amount plus installment times remaining
      installments, each null when an operand is. */
  lemma FeatureCells(f: Frame, i: int) returns (g: Frame)
    requires f.Valid() && GenerateFeatures(f).Ok? && 0 <= i < f.height
    ensures GenerateFeatures(f) == Ok(g) && g.Valid() && g.height == f.height
    ensures Readable(f, AreaCol) && Readable(f, BedroomCol) && Readable(f, BathCol)
    ensures Readable(f, InitialCol) && Readable(f, MonthlyCol) && Readable(f, RemainingCol)
    ensures AreaXBedroomCol in g.data && BedBathRatioCol in g.data && TotalPaymentsCol in g.data
    ensures g.data[AreaXBedroomCol][i] == MulCell(f.data[AreaCol][i], f.data[BedroomCol][i])
    ensures g.data[BedBathRatioCol][i] == RatioCell(f.data[BedroomCol][i], f.data[BathCol][i])
    ensures g.data[TotalPaymentsCol][i] ==
      AddCell(f.data[InitialCol][i], MulCell(f.data[MonthlyCol][i], f.data[RemainingCol][i]))
  {
    g := FeatureFrame(f);
  }

  /** transform: on a copy, assigns the three features in order, then drops
      remaining installments in place. */
  method Transform(X: DataFrame) returns (error: Option<TransformError>, Y: DataFrame)
    requires X.Valid()
    ensures fresh(Y) && Y.Valid()
    ensures GenerateFeatures(X.Contents()).Ok? ==>
      error.None? && Y.Contents() == GenerateFeatures(X.Contents()).value
    ensures GenerateFeatures(X.Contents()).Err? ==> error == Some(GenerateFeatures(X.Contents()).error)
  {
    Y := X.Copy();
    var area := Column(Y.Contents(), AreaCol);
    if area.Err? { return Some(area.error), Y; }
    var bed := Column(Y.Contents(), BedroomCol);
    if bed.Err? { return Some(bed.error), Y; }
    if !Numeric(area.value) || !Numeric(bed.value) { return Some(TypeError(AreaXBedroomCol)), Y; }
    Y.SetColumn(AreaXBedroomCol, Products(area.value, bed.value));

    bed := Column(Y.Contents(), BedroomCol);
    var bath := Column(Y.Contents(), BathCol);
    if bath.Err? { return Some(bath.error), Y; }
    if !Numeric(bath.value) { return Some(TypeError(BedBathRatioCol)), Y; }
    Y.SetColumn(BedBathRatioCol, Ratios(bed.value, bath.value));

    var initial := Column(Y.Contents(), InitialCol);
    if initial.Err? { return Some(initial.error), Y; }
    var monthly := Column(Y.Contents(), MonthlyCol);
    if monthly.Err? { return Some(monthly.error), Y; }
    var remaining := Column(Y.Contents(), RemainingCol);
    if remaining.Err? { return Some(remaining.error), Y; }
    if !Numeric(monthly.value) || !Numeric(remaining.value) || !Numeric(initial.value) {
      return Some(TypeError(TotalPaymentsCol)), Y;
    }
    Y.SetColumn(TotalPaymentsCol, Totals(initial.value, monthly.value, remaining.value));
    Y.Drop({RemainingCol});
    error := None;
  }
}

=== FILE: frequency_encoder.dfy ===
/** FrequencyEncoder (utils/transfomers.py): fit learns, per column, the
    relative frequency of each non-null value; transform replaces each cell of
    the caller's frame by that frequency, 0 for anything not seen in fit. */
module FrequencyEncoding {
  import opened Wrappers
  import opened Table

  /** Number of non-null cells of a column. */
  function NonNullCount(col: seq<Cell>): (n: nat)
    ensures n <= |col|
    ensures n == 0 <==> forall i :: 0 <= i < |col| ==> col[i].None?
  {
    if col == [] then 0 else (if col[0].Some? then 1 else 0) + NonNullCount(col[1..])
  }

  /** Number of cells of a column that hold v. */
  function CountOf(col: seq<Cell>, v: Value): (n: nat)
    ensures n <= NonNullCount(col)
    ensures n > 0 <==> Some(v) in col
  {
    if col == [] then 0 else (if col[0] == Some(v) then 1 else 0) + CountOf(col[1..], v)
  }

  /** The distinct non-null values of a column. */
  function DistinctValues(col: seq<Cell>): (s: set<Value>)
    ensures forall v :: v in s <==> Some(v) in col
  {
    if col == [] then {}
    else (if col[0].Some? then {col[0].value} else {}) + DistinctValues(col[1..])
  }

  /** `X[col].value_counts(normalize=True).to_dict()`: nulls are dropped and
      each distinct value maps to its share of the non-null cells. */
  function Frequencies(col: seq<Cell>): (freq: map<Value, real>)
    ensures forall v :: v in freq <==> Some(v) in col
    ensures forall v :: v in freq ==> 0.0 < freq[v] <= 1.0
  {
    map v | v in DistinctValues(col) :: Share(CountOf(col, v), NonNullCount(col))
  }

  /** c out of n as an exact fraction. */
  function Share(c: nat, n: nat): (r: real)
    requires 0 < c <= n
    ensures 0.0 < r <= 1.0
  {
    c as real / n as real
  }

  /** Sum of m over the given keys. */
  ghost function SumOver(m: map<Value, real>, keys: set<Value>): real
    requires keys <= m.Keys
    decreases keys
  {
    if keys == {} then 0.0
    else
      var k :| k in keys;
      m[k] + SumOver(m, keys - {k})
  }

  /** Any key can be taken out of the sum first. */
  lemma {:induction false} SumOverRemove(m: map<Value, real>, keys: set<Value>, k: Value)
    requires keys <= m.Keys && k in keys
    ensures SumOver(m, keys) == m[k] + SumOver(m, keys - {k})
    decreases keys
  {
    var j :| j in keys && SumOver(m, keys) == m[j] + SumOver(m, keys - {j});
    if j != k {
      SumOverRemove(m, keys - {j}, k);
      SumOverRemove(m, keys - {k}, j);
      assert keys - {j} - {k} == keys - {k} - {j};
    }
  }

  /** Dividing every summand by d divides the sum by d. */
  lemma {:induction false} SumOverScaled(m: map<Value, real>, m': map<Value, real>, keys: set<Value>, d: real)
    requires keys <= m.Keys && keys <= m'.Keys && d != 0.0
    requires forall k :: k in keys ==> m'[k] == m[k] / d
    ensures SumOver(m', keys) == SumOver(m, keys) / d
    decreases keys
  {
    if keys != {} {
      var k :| k in keys;
      SumOverRemove(m, keys, k);
      SumOverRemove(m', keys, k);
      SumOverScaled(m, m', keys - {k}, d);
      DivideSum(m[k], SumOver(m, keys - {k}), d);
    }
  }

  lemma DivideSum(a: real, b: real, d: real)
    requires d != 0.0
    ensures (a + b) / d == a / d + b / d
  {
  }

  /** Maps that agree on the keys have the same sum over them. */
  lemma {:induction false} SumOverAgree(m: map<Value, real>, m': map<Value, real>, keys: set<Value>)
    requires keys <= m.Keys && keys <= m'.Keys
    requires forall k :: k in keys ==> m[k] == m'[k]
    ensures SumOver(m, keys) == SumOver(m', keys)
  {
    SumOverScaled(m', m, keys, 1.0);
  }

  /** The occurrence count of every distinct non-null value. */
  function Counts(col: seq<Cell>): (counts: map<Value, real>)
    ensures counts.Keys == DistinctValues(col)
  {
    map v | v in DistinctValues(col) :: CountOf(col, v) as real
  }

  /** Adding one occurrence of v to a tally adds 1 to its sum. */
  lemma SumOverInsert(m: map<Value, real>, r: map<Value, real>, keys: set<Value>, v: Value)
    requires keys <= r.Keys && keys + {v} <= m.Keys
    requires forall k :: k in keys && k != v ==> m[k] == r[k]
    requires m[v] == (if v in keys then r[v] else 0.0) + 1.0
    ensures SumOver(m, keys + {v}) == SumOver(r, keys) + 1.0
  {
    SumOverRemove(m, keys + {v}, v);
    assert keys + {v} - {v} == keys - {v};
    SumOverAgree(m, r, keys - {v});
    if v in keys {
      SumOverRemove(r, keys, v);
    } else {
      assert keys - {v} == keys;
    }
  }

  /** The occurrence counts of the distinct values add up to the number of
      non-null cells. */
  lemma {:induction false} CountsSum(col: seq<Cell>)
    ensures SumOver(Counts(col), DistinctValues(col)) == NonNullCount(col) as real
  {
    if col != [] {
      var rest := col[1..];
      CountsSum(rest);
      var keys, restKeys := DistinctValues(col), DistinctValues(rest);
      if col[0].None? {
        assert keys == restKeys;
        SumOverAgree(Counts(col), Counts(rest), keys);
      } else {
        assert keys == restKeys + {col[0].value};
        SumOverInsert(Counts(col), Counts(rest), restKeys, col[0].value);
      }
    }
  }

  /** The fitted frequencies of a column with a non-null cell sum to 1. */
  lemma FrequenciesSumToOne(col: seq<Cell>)
    requires exists i :: 0 <= i < |col| && col[i].Some?
    ensures SumOver(Frequencies(col), Frequencies(col).Keys) == 1.0
  {
    var freq, counts, n := Frequencies(col), Counts(col), NonNullCount(col);
    assert n > 0;
    assert freq.Keys == counts.Keys;
    forall k | k in freq.Keys
      ensures freq[k] == counts[k] / n as real
    {
      assert freq[k] == Share(CountOf(col, k), n);
    }
    CountsSum(col);
    SumOverScaled(counts, freq, freq.Keys, n as real);
    assert SumOver(counts, freq.Keys) == n as real;
    DivideSelf(n as real);
  }

  lemma DivideSelf(d: real)
    requires d != 0.0
    ensures d / d == 1.0
  {
  }

  /** `X[col].map(freq).fillna(0)`: every cell becomes the frequency of its
      value, or 0 when the cell is null or its value is not in the table. */
  function EncodeColumn(col: seq<Cell>, freq: map<Value, real>): (r: seq<Cell>)
    ensures |r| == |col|
    ensures forall i :: 0 <= i < |col| ==> r[i].Some? && r[i].value.Num?
    ensures forall i :: 0 <= i < |col| && col[i].Some? && col[i].value in freq ==>
      r[i] == Some(Num(freq[col[i].value]))
    ensures forall i :: 0 <= i < |col| && (col[i].None? || col[i].value !in freq) ==>
      r[i] == Some(Num(0.0))
  {
    seq(|col|, i requires 0 <= i < |col| =>
      if col[i].Some? && col[i].value in freq then Some(Num(freq[col[i].value])) else Some(Num(0.0)))
  }

  /** Encoding a column with the frequencies fitted on another: each cell is
      the share of its value among the fitted column's non-null cells, which is
      0 exactly when the cell is null or its value never occurred in fit. */
  lemma FitThenEncode(fitted: seq<Cell>, col: seq<Cell>, i: nat)
    requires i < |col|
    ensures var r := EncodeColumn(col, Frequencies(fitted))[i];
      && r.Some? && r.value.Num?
      && 0.0 <= r.value.x <= 1.0
      && (r.value.x == 0.0 <==> col[i].None? || Some(col[i].value) !in fitted)
      && (col[i].Some? && Some(col[i].value) in fitted ==>
            r.value.x == CountOf(fitted, col[i].value) as real / NonNullCount(fitted) as real)
  {
    var freq := Frequencies(fitted);
    if col[i].Some? && Some(col[i].value) in fitted {
      var v := col[i].value;
      assert freq[v] == Share(CountOf(fitted, v), NonNullCount(fitted));
    }
  }

  /** Position of the first column the fitted tables do not know, or the
      number of columns when all are known. */
  function FirstUnseen(cols: seq<Col>, encoded: map<Col, map<Value, real>>): (k: nat)
    ensures k <= |cols|
    ensures forall j :: 0 <= j < k ==> cols[j] in encoded
    ensures k < |cols| ==> cols[k] !in encoded
  {
    if cols == [] || cols[0] !in encoded then 0 else 1 + FirstUnseen(cols[1..], encoded)
  }

  /** Every column that has a fitted table, encoded with it. */
  function EncodedColumns(f: Frame, encoded: map<Col, map<Value, real>>): (m: map<Col, seq<Cell>>)
    ensures forall c :: c in m <==> c in f.data && c in encoded
    ensures forall c :: c in m ==> m[c] == EncodeColumn(f.data[c], encoded[c])
  {
    map c | c in f.data && c in encoded :: EncodeColumn(f.data[c], encoded[c])
  }

  /** base with the entries of the listed keys taken from top instead. */
  function Overlay<V>(base: map<Col, V>, top: map<Col, V>, keys: seq<Col>): (m: map<Col, V>)
    requires forall c :: c in keys ==> c in top
    ensures m.Keys == base.Keys
    ensures forall c :: c in m ==> m[c] == if c in keys then top[c] else base[c]
  {
    map c | c in base :: if c in keys then top[c] else base[c]
  }

  /** Overlaying one more key sets that key's entry and no other. */
  lemma OverlayStep<V>(base: map<Col, V>, top: map<Col, V>, keys: seq<Col>, i: nat)
    requires i < |keys| && keys[i] in base && forall c :: c in keys[..i + 1] ==> c in top
    ensures Overlay(base, top, keys[..i])[keys[i] := top[keys[i]]] == Overlay(base, top, keys[..i + 1])
  {
    var a := Overlay(base, top, keys[..i])[keys[i] := top[keys[i]]];
    var b := Overlay(base, top, keys[..i + 1]);
    assert keys[..i + 1] == keys[..i] + [keys[i]];
    assert forall k :: k in keys[..i + 1] <==> k in keys[..i] || k == keys[i];
    assert a.Keys == b.Keys;
    forall k | k in a
      ensures a[k] == b[k]
    {
      if k == keys[i] {
        assert b[k] == top[k];
      } else if k in keys[..i] {
        assert a[k] == top[k] == b[k];
      } else {
        assert a[k] == base[k] == b[k];
      }
    }
  }

  /** The frame with its first k columns encoded and the rest untouched. */
  function EncodePrefix(f: Frame, encoded: map<Col, map<Value, real>>, k: nat): (g: Frame)
    requires f.Valid() && k <= |f.columns|
    requires forall j :: 0 <= j < k ==> f.columns[j] in encoded
    ensures g.Valid() && g.columns == f.columns && g.height == f.height
    ensures forall j :: 0 <= j < k ==>
      g.data[f.columns[j]] == EncodeColumn(f.data[f.columns[j]], encoded[f.columns[j]])
    ensures forall j :: k <= j < |f.columns| ==> g.data[f.columns[j]] == f.data[f.columns[j]]
  {
    assert forall c :: c in f.columns[..k] ==> c in EncodedColumns(f, encoded);
    var g := Frame(f.columns, Overlay(f.data, EncodedColumns(f, encoded), f.columns[..k]), f.height);
    assert forall j :: k <= j < |f.columns| ==> f.columns[j] !in f.columns[..k];
    g
  }

  /** Column k is the first one without a fitted table, the error names it,
      and g has the columns before k encoded and the others untouched. */
  ghost predicate UnseenAt(f: Frame, encoded: map<Col, map<Value, real>>, k: int, e: TransformError, g: Frame)
    requires f.Valid() && g.Valid() && g.columns == f.columns
  {
    && 0 <= k < |f.columns|
    && e == UnseenColumn(f.columns[k])
    && f.columns[k] !in encoded
    && (forall j :: 0 <= j < k ==> f.columns[j] in encoded)
    && (forall j :: 0 <= j < k ==>
          g.data[f.columns[j]] == EncodeColumn(f.data[f.columns[j]], encoded[f.columns[j]]))
    && (forall j :: k <= j < |f.columns| ==> g.data[f.columns[j]] == f.data[f.columns[j]])
  }

  /** What a transform leaves behind, on the caller's frame: the columns up to
      the first unseen one are encoded; the outcome names that column. */
  function EncodeFrame(f: Frame, encoded: map<Col, map<Value, real>>): (r: (Option<TransformError>, Frame))
    requires f.Valid()
    ensures r.1.Valid() && r.1.columns == f.columns && r.1.height == f.height
    ensures r.0.None? <==> forall c :: c in f.data ==> c in encoded
    ensures r.0.Some? ==> exists k :: UnseenAt(f, encoded, k, r.0.value, r.1)
    ensures r.0.None? ==> forall c :: c in f.data ==> r.1.data[c] == EncodeColumn(f.data[c], encoded[c])
  {
    var k := FirstUnseen(f.columns, encoded);
    var g := EncodePrefix(f, encoded, k);
    if k < |f.columns| then
      assert UnseenAt(f, encoded, k, UnseenColumn(f.columns[k]), g);
      (Some(UnseenColumn(f.columns[k])), g)
    else
      (None, g)
  }

  /** The table `fit` learns from a frame: one frequency table per column. */
  function FitTables(f: Frame): (t: map<Col, map<Value, real>>)
    requires f.Valid()
    ensures t.Keys == f.data.Keys
    ensures forall c :: c in t ==> t[c] == Frequencies(f.data[c])
  {
    map c | c in f.data :: Frequencies(f.data[c])
  }

  /** The entries of m for the listed keys. */
  function Restrict<V>(m: map<Col, V>, cols: seq<Col>): (r: map<Col, V>)
    requires forall c :: c in cols ==> c in m
    ensures r.Keys == set c | c in cols
    ensures forall c :: c in r ==> r[c] == m[c]
  {
    map c | c in cols :: m[c]
  }

  /** Taking one more key's entry extends the restriction by that key. */
  lemma RestrictStep<V>(before: map<Col, V>, m: map<Col, V>, cols: seq<Col>, i: nat)
    requires i < |cols| && forall c :: c in cols ==> c in m
    ensures (before + Restrict(m, cols[..i]))[cols[i] := m[cols[i]]] == before + Restrict(m, cols[..i + 1])
  {
    var c := cols[i];
    var a := (before + Restrict(m, cols[..i]))[c := m[c]];
    var b := before + Restrict(m, cols[..i + 1]);
    assert cols[..i + 1] == cols[..i] + [c];
    assert forall k :: k in cols[..i + 1] <==> k in cols[..i] || k == c;
    assert a.Keys == b.Keys;
    forall k | k in a
      ensures a[k] == b[k]
    {
      if k == c {
        assert b[k] == m[c];
      } else if k in cols[..i] {
        assert a[k] == m[k] == b[k];
      } else {
        assert a[k] == before[k] == b[k];
      }
    }
  }

  lemma RestrictAll<V>(m: map<Col, V>, cols: seq<Col>)
    requires forall c :: c in cols <==> c in m
    ensures Restrict(m, cols) == m
  {
  }

  class FrequencyEncoder {
    /** `self.encoded_dec`: column name to value-frequency table. */
    var encoded: map<Col, map<Value, real>>

    constructor ()
      ensures encoded == map[]
    {
      encoded := map[];
    }

    /** Adds (or replaces) the frequency table of every column of X; tables of
        columns learnt by an earlier fit and absent from X are kept. */
    method Fit(X: DataFrame)
      requires X.Valid()
      modifies this
      ensures encoded == old(encoded) + FitTables(X.Contents())
    {
      ghost var f := X.Contents();
      var i := 0;
      while i < |X.columns|
        invariant 0 <= i <= |X.columns| && X.Contents() == f
        invariant encoded == old(encoded) + Restrict(FitTables(f), f.columns[..i])
      {
        var c := X.columns[i];
        RestrictStep(old(encoded), FitTables(f), f.columns, i);
        encoded := encoded[c := Frequencies(X.data[c])];
        i := i + 1;
      }
      assert f.columns[..i] == f.columns;
      RestrictAll(FitTables(f), f.columns);
    }

    /** Overwrites the columns of the caller's frame one by one in column
        order; at the first column without a fitted table it stops with
        ValueError, leaving the columns before it already encoded. */
    method Transform(X: DataFrame) returns (error: Option<TransformError>)
      requires X.Valid()
      modifies X
      ensures X.Valid()
      ensures (error, X.Contents()) == EncodeFrame(old(X.Contents()), encoded)
    {
      ghost var f := X.Contents();
      var i := 0;
      while i < |X.columns|
        invariant 0 <= i <= |f.columns|
        invariant forall j :: 0 <= j < i ==> f.columns[j] in encoded
        invariant X.Valid() && X.Contents() == EncodePrefix(f, encoded, i)
      {
        var c := X.columns[i];
        if c !in encoded {
          EncodeFrameAt(f, encoded, i);
          return Some(UnseenColumn(c));
        }
        EncodePrefixStep(f, encoded, i);
        X.SetColumn(c, EncodeColumn(X.data[c], encoded[c]));
        i := i + 1;
      }
      EncodeFrameAt(f, encoded, i);
      return None;
    }
  }

  /** Encoding column i of a frame whose first i columns are encoded gives
      the frame whose first i + 1 columns are. */
  lemma EncodePrefixStep(f: Frame, encoded: map<Col, map<Value, real>>, i: nat)
    requires f.Valid() && i < |f.columns|
    requires forall j :: 0 <= j <= i ==> f.columns[j] in encoded
    ensures var g, c := EncodePrefix(f, encoded, i), f.columns[i];
      g.data[c] == f.data[c]
      && WithColumn(g, c, EncodeColumn(f.data[c], encoded[c])) == EncodePrefix(f, encoded, i + 1)
  {
    var top := EncodedColumns(f, encoded);
    var c := f.columns[i];
    assert c in f.data;
    assert forall d :: d in f.columns[..i + 1] ==> d in top;
    OverlayStep(f.data, top, f.columns, i);
    var g := EncodePrefix(f, encoded, i);
    assert g.data == Overlay(f.data, top, f.columns[..i]);
    assert EncodePrefix(f, encoded, i + 1).data == Overlay(f.data, top, f.columns[..i + 1]);
    assert EncodeColumn(f.data[c], encoded[c]) == top[c];
  }

  /** The outcome of a transform that stops at column i (or runs to the end). */
  lemma EncodeFrameAt(f: Frame, encoded: map<Col, map<Value, real>>, i: nat)
    requires f.Valid() && i <= |f.columns|
    requires forall j :: 0 <= j < i ==> f.columns[j] in encoded
    requires i < |f.columns| ==> f.columns[i] !in encoded
    ensures EncodeFrame(f, encoded)
      == (if i < |f.columns| then Some(UnseenColumn(f.columns[i])) else None, EncodePrefix(f, encoded, i))
  {
    FirstUnseenAt(f.columns, encoded, i);
  }

  /** FirstUnseen is the index i when every earlier column is known and
      column i is not (or i is the end). */
  lemma {:induction false} FirstUnseenAt(cols: seq<Col>, encoded: map<Col, map<Value, real>>, i: nat)
    requires i <= |cols|
    requires forall j :: 0 <= j < i ==> cols[j] in encoded
    requires i < |cols| ==> cols[i] !in encoded
    ensures FirstUnseen(cols, encoded) == i
  {
    if i > 0 {
      FirstUnseenAt(cols[1..], encoded, i - 1);
    }
  }
}

=== FILE: payment_imputer.dfy ===
/** CustomPaymentImputer: a null monthly installment is filled with the
    median installment of the rows whose initial amount rounds to the same
    whole number, and a null initial amount with the median initial amount
    of the rows whose installment rounds the same. The rounded keys live in
    two helper columns that are dropped before the frame is returned. */
module PaymentImputation {
  import opened Wrappers
  import opened Table

  const InitialCol: Col := "initial_amount(Lakhs)"
  const MonthlyCol: Col := "monthly_installment(Lakhs)"
  const InitialRoundCol: Col := "initial_round"
  const MonthlyRoundCol: Col := "monthly_round"
  const Helpers: set<Col> := {InitialRoundCol, MonthlyRoundCol}

  /** The two medians dictionaries, keyed by a rounded amount. A median of a
      group whose values are all null is null. */
  datatype PaymentTables = PaymentTables(monthlyByInitial: map<real, Cell>, initialByMonthly: map<real, Cell>)

  /** `round(0)` as numpy does it: to the nearest whole number, and to the
      even one of the two when x lies exactly half-way. */
  function Round(x: real): (n: int)
    ensures -(1.0 / 2.0) <= n as real - x <= 1.0 / 2.0
    ensures (n as real - x == 1.0 / 2.0 || x - n as real == 1.0 / 2.0) ==> n % 2 == 0
  {
    var fl := x.Floor;
    var frac := x - fl as real;
    if frac < 1.0 / 2.0 then fl
    else if frac > 1.0 / 2.0 then fl + 1
    else if fl % 2 == 0 then fl
    else fl + 1
  }

  function RoundCell(c: Cell): (r: Cell)
    requires c.None? || c.value.Num?
    ensures r.None? <==> c.None?
    ensures r.Some? ==> r.value.Num? && -(1.0 / 2.0) <= r.value.x - c.value.x <= 1.0 / 2.0
    ensures r.Some? ==> r.value == Num(Round(c.value.x) as real)
  {
    if c.None? then None else Some(Num(Round(c.value.x) as real))
  }

  /** `X[c].round(0)`: a KeyError when the column is absent, a TypeError when
      it holds a string, and otherwise each cell rounded, nulls kept. */
  function RoundColumn(f: Frame, c: Col): (r: Result<seq<Cell>, TransformError>)
    requires f.Valid()
    ensures r == Err(KeyError(c)) <==> c !in f.data
    ensures r == Err(TypeError(c)) <==> c in f.data && !Numeric(f.data[c])
    ensures r.Err? ==> r.error == KeyError(c) || r.error == TypeError(c)
    ensures r.Ok? ==> c in f.data && Numeric(f.data[c]) && |r.value| == f.height
    ensures r.Ok? ==> forall i :: 0 <= i < |r.value| ==> r.value[i] == RoundCell(f.data[c][i])
  {
    if c !in f.data then Err(KeyError(c))
    else if !Numeric(f.data[c]) then Err(TypeError(c))
    else Ok(seq(|f.data[c]|, i requires 0 <= i < |f.data[c]| => RoundCell(f.data[c][i])))
  }

  /** `series.map(table)` on one rounded key: a key that is null or not in
      the table maps to null. */
  function MapKey(key: Cell, table: map<real, Cell>): (r: Cell)
    ensures r.Some? ==> key.Some? && key.value.Num? && key.value.x in table && r == table[key.value.x]
    ensures key.Some? && key.value.Num? && key.value.x in table ==> r == table[key.value.x]
  {
    if key.Some? && key.value.Num? && key.value.x in table then table[key.value.x] else None
  }

  /** `X.loc[X[col].isna(), col] = X.loc[mask, keyCol].map(table)`. */
  function FillMasked(vals: seq<Cell>, keys: seq<Cell>, table: map<real, Cell>): (r: seq<Cell>)
    requires |vals| == |keys|
    ensures |r| == |vals|
  {
    seq(|vals|, i requires 0 <= i < |vals| => if vals[i].None? then MapKey(keys[i], table) else vals[i])
  }

  /** Every non-null cell of `vals` survives, and every null one is looked up. */
  lemma FillMaskedCells(vals: seq<Cell>, keys: seq<Cell>, table: map<real, Cell>, i: int)
    requires |vals| == |keys| && 0 <= i < |vals|
    ensures vals[i].Some? ==> FillMasked(vals, keys, table)[i] == vals[i]
    ensures vals[i].None? ==> FillMasked(vals, keys, table)[i] == MapKey(keys[i], table)
  {
  }

  /** transform on a frame, step by step as the source writes it. */
  function ImputePayments(t: PaymentTables, f: Frame): (r: Result<Frame, TransformError>)
    requires f.Valid()
    ensures r.Ok? ==> r.value.Valid() && r.value.height == f.height
    ensures r.Ok? ==> r.value.columns == Without(f.columns, Helpers)
  {
    var ir :- RoundColumn(f, InitialCol);
    var f1 := WithColumn(f, InitialRoundCol, ir);
    HelperAdded(f, InitialRoundCol, ir);
    var mr :- RoundColumn(f1, MonthlyCol);
    var f2 := WithColumn(f1, MonthlyRoundCol, mr);
    HelperAdded(f1, MonthlyRoundCol, mr);
    var f3 := WithColumn(f2, MonthlyCol, FillMasked(f2.data[MonthlyCol], f2.data[InitialRoundCol], t.monthlyByInitial));
    var f4 := WithColumn(f3, InitialCol, FillMasked(f3.data[InitialCol], f3.data[MonthlyRoundCol], t.initialByMonthly));
    Ok(DropColumns(f4, Helpers))
  }

  /** Adding a helper column does not change what is left once the helpers
      are dropped. */
  lemma HelperAdded(f: Frame, c: Col, vals: seq<Cell>)
    requires f.Valid() && |vals| == f.height && c in Helpers
    ensures Without(WithColumn(f, c, vals).columns, Helpers) == Without(f.columns, Helpers)
  {
    if c !in f.data {
      WithoutAppend(f.columns, [c]);
    }
  }

  lemma {:induction false} WithoutAll(cols: seq<Col>)
    requires forall c :: c in cols ==> c in Helpers
    ensures Without(cols, Helpers) == []
  {
    if cols != [] {
      WithoutAll(cols[1..]);
    }
  }

  lemma {:induction false} WithoutAppend(cols: seq<Col>, extra: seq<Col>)
    requires forall c :: c in extra ==> c in Helpers
    ensures Without(cols + extra, Helpers) == Without(cols, Helpers)
  {
    if cols == [] {
      assert cols + extra == extra;
      WithoutAll(extra);
    } else {
      assert (cols + extra)[1..] == cols[1..] + extra;
      WithoutAppend(cols[1..], extra);
    }
  }

  /** The first error fit and transform raise, if any: initial amount
      before monthly installment, a missing column before a string. */
  function RoundingError(f: Frame): (e: Option<TransformError>)
    requires f.Valid()
    ensures e.None? <==>
      (InitialCol in f.data && Numeric(f.data[InitialCol]) && MonthlyCol in f.data && Numeric(f.data[MonthlyCol]))
    ensures InitialCol !in f.data ==> e == Some(KeyError(InitialCol))
    ensures InitialCol in f.data && !Numeric(f.data[InitialCol]) ==> e == Some(TypeError(InitialCol))
    ensures InitialCol in f.data && Numeric(f.data[InitialCol]) && MonthlyCol !in f.data ==> e == Some(KeyError(MonthlyCol))
    ensures InitialCol in f.data && Numeric(f.data[InitialCol]) && MonthlyCol in f.data && !Numeric(f.data[MonthlyCol])
      ==> e == Some(TypeError(MonthlyCol))
  {
    if RoundColumn(f, InitialCol).Err? then Some(RoundColumn(f, InitialCol).error)
    else if RoundColumn(f, MonthlyCol).Err? then Some(RoundColumn(f, MonthlyCol).error)
    else None
  }

  /** transform fails exactly when the rounding fails, with the same error,
      whatever the fitted tables. */
  lemma ImputePaymentsErrors(t: PaymentTables, f: Frame)
    requires f.Valid()
    ensures ImputePayments(t, f).Err? <==> RoundingError(f).Some?
    ensures ImputePayments(t, f).Err? ==> ImputePayments(t, f).error == RoundingError(f).value
  {
    if RoundColumn(f, InitialCol).Ok? {
      var f1 := WithColumn(f, InitialRoundCol, RoundColumn(f, InitialCol).value);
      assert RoundColumn(f1, MonthlyCol) == RoundColumn(f, MonthlyCol);
    }
  }

  /** The only cells transform changes are null ones in the two amount
      columns; every other column that remains is as it was. */
  lemma ImputePaymentsKeeps(t: PaymentTables, f: Frame, c: Col)
    requires f.Valid() && ImputePayments(t, f).Ok?
    ensures c in ImputePayments(t, f).value.data <==> c in f.data && c !in Helpers
    ensures c in f.data && c !in Helpers && c != InitialCol && c != MonthlyCol ==>
      ImputePayments(t, f).value.data[c] == f.data[c]
    ensures c in f.data && c !in Helpers ==>
      forall i :: 0 <= i < f.height && f.data[c][i].Some? ==> ImputePayments(t, f).value.data[c][i] == f.data[c][i]
  {
    if c in f.data && c !in Helpers && (c == InitialCol || c == MonthlyCol) {
      forall i | 0 <= i < f.height && f.data[c][i].Some?
        ensures ImputePayments(t, f).value.data[c][i] == f.data[c][i]
      {
        var _ := PaymentCells(t, f, i);
      }
    }
  }

  /** A null installment takes the median of its rounded initial amount and
      a null initial amount the median of its rounded installment; both keys
      are taken from the input, before either column is filled. */
  lemma PaymentCells(t: PaymentTables, f: Frame, i: int) returns (g: Frame)
    requires f.Valid() && ImputePayments(t, f).Ok? && 0 <= i < f.height
    ensures ImputePayments(t, f) == Ok(g) && g.Valid() && g.height == f.height
    ensures InitialCol in f.data && MonthlyCol in f.data && InitialCol in g.data && MonthlyCol in g.data
    ensures Numeric(f.data[InitialCol]) && Numeric(f.data[MonthlyCol])
    ensures g.data[MonthlyCol][i] ==
      if f.data[MonthlyCol][i].None? then MapKey(RoundCell(f.data[InitialCol][i]), t.monthlyByInitial)
      else f.data[MonthlyCol][i]
    ensures g.data[InitialCol][i] ==
      if f.data[InitialCol][i].None? then MapKey(RoundCell(f.data[MonthlyCol][i]), t.initialByMonthly)
      else f.data[InitialCol][i]
  {
    var ir := RoundColumn(f, InitialCol).value;
    var f1 := WithColumn(f, InitialRoundCol, ir);
    var mr := RoundColumn(f1, MonthlyCol).value;
    var f2 := WithColumn(f1, MonthlyRoundCol, mr);
    var monthly := FillMasked(f2.data[MonthlyCol], f2.data[InitialRoundCol], t.monthlyByInitial);
    FillMaskedCells(f2.data[MonthlyCol], f2.data[InitialRoundCol], t.monthlyByInitial, i);
    var f3 := WithColumn(f2, MonthlyCol, monthly);
    var initial := FillMasked(f3.data[InitialCol], f3.data[MonthlyRoundCol], t.initialByMonthly);
    FillMaskedCells(f3.data[InitialCol], f3.data[MonthlyRoundCol], t.initialByMonthly, i);
    var f4 := WithColumn(f3, InitialCol, initial);
    g := DropColumns(f4, Helpers);
    assert g.data[MonthlyCol] == monthly && g.data[InitialCol] == initial;
  }

  /** A row with both amounts null keeps both null: each key is the other
      column's rounded value, which is null too. */
  lemma BothNullStayNull(t: PaymentTables, f: Frame, i: int) returns (g: Frame)
    requires f.Valid() && InitialCol in f.data && MonthlyCol in f.data && 0 <= i < f.height
    requires ImputePayments(t, f).Ok?
    requires f.data[InitialCol][i].None? && f.data[MonthlyCol][i].None?
    ensures ImputePayments(t, f) == Ok(g) && g.Valid() && g.height == f.height
    ensures InitialCol in g.data && MonthlyCol in g.data
    ensures g.data[InitialCol][i].None? && g.data[MonthlyCol][i].None?
  {
    g := PaymentCells(t, f, i);
  }

  /** A frame without helper columns comes back with exactly its own columns. */
  lemma ImputePaymentsColumns(t: PaymentTables, f: Frame)
    requires f.Valid() && ImputePayments(t, f).Ok?
    requires InitialRoundCol !in f.data && MonthlyRoundCol !in f.data
    ensures ImputePayments(t, f).value.columns == f.columns
  {
  }

  /** fit on a frame: the same rounding errors as transform, and on success
      the two dictionaries replace the old ones. */
  function FitPayments(t: PaymentTables, f: Frame, stats: PaymentTables): (r: (Option<TransformError>, PaymentTables))
    requires f.Valid()
    ensures r.0 == RoundingError(f)
    ensures r.0.Some? ==> r.1 == t
    ensures r.0.None? ==> r.1 == stats
  {
    if RoundingError(f).Some? then (RoundingError(f), t) else (None, stats)
  }

  /** After a successful fit, transform fails on exactly the frames fit
      fails on, and otherwise fills from the dictionaries fit stored. */
  lemma FitThenTransform(t: PaymentTables, f: Frame, stats: PaymentTables, g: Frame)
    requires f.Valid() && g.Valid() && FitPayments(t, f, stats).0.None?
    ensures ImputePayments(FitPayments(t, f, stats).1, g).Err? <==> FitPayments(t, g, stats).0.Some?
  {
    ImputePaymentsErrors(stats, g);
  }

  class CustomPaymentImputer {
    var monthlyByInitial: map<real, Cell>
    var initialByMonthly: map<real, Cell>

    function Fitted(): PaymentTables
      reads this
    {
      PaymentTables(monthlyByInitial, initialByMonthly)
    }

    constructor ()
      ensures Fitted() == PaymentTables(map[], map[])
    {
      monthlyByInitial, initialByMonthly := map[], map[];
    }

    /** fit: rounds both amounts on a copy (raising what that raises), then
        stores the two groupby medians, given here as `stats`. */
    method Fit(X: DataFrame, stats: PaymentTables) returns (error: Option<TransformError>)
      requires X.Valid()
      modifies this
      ensures (error, Fitted()) == FitPayments(old(Fitted()), X.Contents(), stats)
    {
      var f := X.Contents();
      var ir := RoundColumn(f, InitialCol);
      if ir.Err? {
        return Some(ir.error);
      }
      var f1 := WithColumn(f, InitialRoundCol, ir.value);
      var mr := RoundColumn(f1, MonthlyCol);
      if mr.Err? {
        assert RoundColumn(f, MonthlyCol) == mr;
        return Some(mr.error);
      }
      assert RoundColumn(f, MonthlyCol).Ok?;
      monthlyByInitial := stats.monthlyByInitial;
      initialByMonthly := stats.initialByMonthly;
      error := None;
    }

    /** transform: on a copy, adds both rounded keys, fills the masked nulls
        of each amount from the other's key, and drops the helpers. */
    method Transform(X: DataFrame) returns (error: Option<TransformError>, Y: DataFrame)
      requires X.Valid()
      ensures fresh(Y) && Y.Valid()
      ensures ImputePayments(Fitted(), X.Contents()).Ok? ==>
        error.None? && Y.Contents() == ImputePayments(Fitted(), X.Contents()).value
      ensures ImputePayments(Fitted(), X.Contents()).Err? ==>
        error == Some(ImputePayments(Fitted(), X.Contents()).error)
    {
      var t := Fitted();
      Y := X.Copy();
      var ir := RoundColumn(Y.Contents(), InitialCol);
      if ir.Err? {
        return Some(ir.error), Y;
      }
      Y.SetColumn(InitialRoundCol, ir.value);
      var mr := RoundColumn(Y.Contents(), MonthlyCol);
      if mr.Err? {
        return Some(mr.error), Y;
      }
      Y.SetColumn(MonthlyRoundCol, mr.value);
      var g := Y.Contents();
      Y.SetColumn(MonthlyCol, FillMasked(g.data[MonthlyCol], g.data[InitialRoundCol], t.monthlyByInitial));
      g := Y.Contents();
      Y.SetColumn(InitialCol, FillMasked(g.data[InitialCol], g.data[MonthlyRoundCol], t.initialByMonthly));
      Y.Drop(Helpers);
      error := None;
    }
  }
}

=== FILE: prediction_form.dfy ===
/** The submit handler of the prediction form: it checks that a purpose is
    chosen, shows a loading state, posts the form as JSON, and ends in a
    success state showing the price or an error state showing a message.
    The network exchange is given as its outcome; number parsing is given as
    its result, with None standing for NaN. */
module PredictionForm {
  import opened Wrappers

  const BaseClass: string := "prediction-result"
  const SuccessClass: string := "prediction-result result-success"
  const ErrorClass: string := "prediction-result result-error"

  const PurposeAlert: string := "Please select a purpose (For Sale or For Rent)"
  const TimeoutMessage: string := "Request timeout after 30 seconds"
  const DefaultPredictionError: string := "Error processing prediction"
  const UnknownError: string := "Unknown error occurred"

  /** The prices the model returns are in lakhs of rupees. */
  const RupeesPerLakh: real := 100000.0

  /** The form's fields, with the three numeric ones already parsed. */
  datatype FormInputs = FormInputs(
    typ: string,
    area: Option<real>,
    bedrooms: Option<real>,
    bath: Option<real>,
    initialAmount: Option<real>,
    monthlyInstallment: Option<real>,
    remainingInstallments: Option<int>,
    location: string,
    city: string,
    province: string)

  /** The JSON object the handler posts. */
  datatype Payload = Payload(
    typ: string,
    area: Option<real>,
    purpose: string,
    bedrooms: Option<real>,
    bath: Option<real>,
    initialAmount: real,
    monthlyInstallment: real,
    remainingInstallments: int,
    location: string,
    city: string,
    province: string)

  /** `x || 0` on a parsed number: NaN, and zero itself, give 0. */
  function OrZero(x: Option<real>): (r: real)
    ensures x.Some? ==> r == x.value
    ensures x.None? ==> r == 0.0
  {
    if x.None? || x.value == 0.0 then 0.0 else x.value
  }

  function OrZeroInt(x: Option<int>): (r: int)
    ensures x.Some? ==> r == x.value
    ensures x.None? ==> r == 0
  {
    if x.None? || x.value == 0 then 0 else x.value
  }

  /** The `formData` object literal. Only the three payment fields fall
      back to 0 when their input did not parse; area, bedrooms and bath carry
      the parse result, NaN included. Every text field and the purpose are
      passed as they are. */
  function BuildPayload(inputs: FormInputs, purpose: string): (p: Payload)
    ensures inputs.initialAmount.None? ==> p.initialAmount == 0.0
    ensures inputs.initialAmount.Some? ==> p.initialAmount == inputs.initialAmount.value
    ensures inputs.monthlyInstallment.None? ==> p.monthlyInstallment == 0.0
    ensures inputs.monthlyInstallment.Some? ==> p.monthlyInstallment == inputs.monthlyInstallment.value
    ensures inputs.remainingInstallments.None? ==> p.remainingInstallments == 0
    ensures inputs.remainingInstallments.Some? ==> p.remainingInstallments == inputs.remainingInstallments.value
    ensures p.area == inputs.area && p.bedrooms == inputs.bedrooms && p.bath == inputs.bath
    ensures p.typ == inputs.typ && p.purpose == purpose
    ensures p.location == inputs.location && p.city == inputs.city && p.province == inputs.province
  {
    Payload(inputs.typ, inputs.area, purpose, inputs.bedrooms, inputs.bath,
            OrZero(inputs.initialAmount), OrZero(inputs.monthlyInstallment),
            OrZeroInt(inputs.remainingInstallments),
            inputs.location, inputs.city, inputs.province)
  }

  /** The parsed body of an ok response, or the message of the error that
      parsing it threw. `error` is None when the field is absent or empty. */
  datatype Body = Unparsable(parseError: string) | Json(success: bool, prediction: Option<real>, error: Option<string>)

  /** How the race between the request and the 30-second timer ended. */
  datatype Outcome =
    | TimedOut
    | NetworkError(message: string)
    | Response(ok: bool, status: nat, text: string, body: Body)

  /** What the result area shows. A price that does not parse is shown as
      NaN, that is, None. */
  datatype View = Blank | Loading | Success(price: Option<real>, rupees: Option<real>) | Failure(message: string)

  function DigitChar(d: nat): (c: char)
    requires d < 10
    ensures '0' <= c <= '9'
  {
    "0123456789"[d]
  }

  /** A number in a template literal: its decimal digits. */
  function DecimalString(n: nat): (s: string)
    ensures |s| >= 1
    ensures forall i :: 0 <= i < |s| ==> '0' <= s[i] <= '9'
    ensures n >= 10 ==> s[0] != '0'
  {
    if n < 10 then [DigitChar(n)] else DecimalString(n / 10) + [DigitChar(n % 10)]
  }

  predicate AllDigits(s: string) {
    forall i :: 0 <= i < |s| ==> '0' <= s[i] <= '9'
  }

  /** The value of a digit string, to read DecimalString back. */
  function DigitsValue(s: string): nat
    requires AllDigits(s)
  {
    if s == [] then 0 else 10 * DigitsValue(s[..|s| - 1]) + (s[|s| - 1] as int - '0' as int)
  }

  lemma {:induction false} DecimalStringValue(n: nat)
    ensures AllDigits(DecimalString(n)) && DigitsValue(DecimalString(n)) == n
  {
    if n >= 10 {
      DecimalStringValue(n / 10);
      var s := DecimalString(n);
      assert s[..|s| - 1] == DecimalString(n / 10);
    }
  }

  /** The message of the error the try block throws, or None when it reaches
      the success branch. */
  function Thrown(o: Outcome): Option<string> {
    match o
    case TimedOut => Some(TimeoutMessage)
    case NetworkError(m) => Some(m)
    case Response(ok, status, text, body) =>
      if !ok then Some("Server error: " + DecimalString(status) + " - " + text)
      else match body
        case Unparsable(m) => Some(m)
        case Json(success, _, error) =>
          if success then None
          else Some(if error.Some? && error.value != "" then error.value else DefaultPredictionError)
  }

  /** `error.message || 'Unknown error occurred'`. */
  function Shown(message: string): (r: string)
    ensures r != ""
    ensures message != "" ==> r == message
  {
    if message == "" then UnknownError else message
  }

  /** The view the handler settles on once the race is decided. The area
      reaches the success state exactly for an ok response whose body parses
      and says success, and then shows the predicted lakhs next to the same
      amount in rupees; every other outcome ends in the error state with a
      non-empty message. */
  function Settle(o: Outcome): (v: View)
    ensures v.Success? <==> o.Response? && o.ok && o.body.Json? && o.body.success
    ensures !v.Success? ==> v.Failure? && v.message != ""
    ensures v.Success? ==> v.price == o.body.prediction
    ensures v.Success? && v.price.Some? ==> v.rupees.Some? && v.rupees.value / RupeesPerLakh == v.price.value
    ensures v.Success? && v.price.None? ==> v.rupees.None?
  {
    match Thrown(o)
    case Some(m) => Failure(Shown(m))
    case None =>
      var price := o.body.prediction;
      Success(price, if price.Some? then Some(price.value * RupeesPerLakh) else None)
  }

  /** The error messages of the individual failures. */
  lemma SettleFailures(o: Outcome)
    ensures o.TimedOut? ==> Settle(o) == Failure(TimeoutMessage)
    ensures o.Response? && !o.ok ==>
      exists digits :: AllDigits(digits) && DigitsValue(digits) == o.status && Settle(o) == Failure("Server error: " + digits + " - " + o.text)
    ensures o.Response? && o.ok && o.body.Json? && !o.body.success && (o.body.error.None? || o.body.error.value == "") ==>
      Settle(o) == Failure(DefaultPredictionError)
    ensures o.Response? && o.ok && o.body.Json? && !o.body.success && o.body.error.Some? && o.body.error.value != "" ==>
      Settle(o) == Failure(o.body.error.value)
    ensures o.NetworkError? ==> Settle(o) == Failure(Shown(o.message))
    ensures o.Response? && o.ok && o.body.Unparsable? ==> Settle(o) == Failure(Shown(o.body.parseError))
  {
    if o.Response? && !o.ok {
      DecimalStringValue(o.status);
      var digits := DecimalString(o.status);
      assert Settle(o) == Failure("Server error: " + digits + " - " + o.text);
    }
  }

  /** The result `div`: its class, whether it is displayed, and what it shows.
      `shown` is the sequence of views it has passed through. */
  class ResultArea {
    var className: string
    var displayed: bool
    var view: View
    ghost var shown: seq<View>

    /** The element the page looks up; its starting class, visibility and
        content come from the HTML, so all three are given. */
    constructor (className: string, displayed: bool, view: View)
      ensures this.className == className && this.displayed == displayed && this.view == view && shown == []
    {
      this.className, this.displayed, this.view := className, displayed, view;
      shown := [];
    }

    method Show(c: string, v: View)
      modifies this
      ensures className == c && view == v && displayed == old(displayed)
      ensures shown == old(shown) + [v]
    {
      className, view := c, v;
      shown := shown + [v];
    }
  }

  /** The submit handler. `purpose` is the checked radio button's value, if
      any, and `area` the result `div`, if the page has one. It returns
      the alert it raised and the payload it posted, if any. */
  method Submit(area: ResultArea?, purpose: Option<string>, inputs: FormInputs, o: Outcome)
    returns (alerted: Option<string>, posted: Option<Payload>)
    modifies area
    ensures purpose.None? ==> alerted == Some(PurposeAlert) && posted.None?
    ensures purpose.None? || area == null ==> area == null || unchanged(area)
    ensures purpose.Some? ==> alerted.None?
    ensures purpose.Some? && area == null ==> posted.None?
    ensures purpose.Some? && area != null ==>
      && posted == Some(BuildPayload(inputs, purpose.value))
      && area.displayed
      && area.shown == old(area.shown) + [Loading, Settle(o)]
      && area.view == Settle(o) && area.className == (if Settle(o).Success? then SuccessClass else ErrorClass)
  {
    alerted, posted := None, None;
    if purpose.None? {
      alerted := Some(PurposeAlert);
      return;
    }
    if area == null {
      return;
    }
    area.Show(BaseClass, Loading);
    area.displayed := true;
    posted := Some(BuildPayload(inputs, purpose.value));
    var thrown := Thrown(o);
    if thrown.None? {
      var price := o.body.prediction;
      var v := Success(price, if price.Some? then Some(price.value * RupeesPerLakh) else None);
      area.Show(SuccessClass, v);
    } else {
      area.Show(ErrorClass, Failure(Shown(thrown.value)));
    }
  }
}

=== FILE: table.dfy ===
/** The tabular data the transformers work on: a pandas frame reduced to its
    column order, its cells and its row count. A cell is either null (pandas
    NaN / None) or a value, which is a number or a string. */
module Table {
  import opened Wrappers

  type Col = string

  datatype Value = Num(x: real) | Text(s: string)

  /** None stands for a pandas null. */
  type Cell = Option<Value>

  /** The exceptions the transformers raise: ValueError for a column the
      encoder has not seen, KeyError for a column a row lookup needs, and
      TypeError for arithmetic on a non-numeric cell. */
  datatype TransformError = UnseenColumn(col: Col) | KeyError(col: Col) | TypeError(col: Col)

  /** A column pandas can do arithmetic on: no cell holds a string. */
  predicate Numeric(col: seq<Cell>) {
    forall i :: 0 <= i < |col| ==> col[i].None? || col[i].value.Num?
  }

  predicate Distinct(cols: seq<Col>) {
    forall i, j :: 0 <= i < j < |cols| ==> cols[i] != cols[j]
  }

  datatype Frame = Frame(columns: seq<Col>, data: map<Col, seq<Cell>>, height: nat) {
    /** Column names are unique, every listed column has data, and every
        column has one cell per row. */
    ghost predicate Valid() {
      && Distinct(columns)
      && (forall c :: c in data <==> c in columns)
      && (forall c :: c in data ==> |data[c]| == height)
    }
  }

  /** pandas `X[c] = vals`: replaces column c in place, or appends it at the end. */
  function WithColumn(f: Frame, c: Col, vals: seq<Cell>): (g: Frame)
    requires f.Valid() && |vals| == f.height
    ensures g.Valid() && g.height == f.height
    ensures c in f.data ==> g.columns == f.columns
    ensures c !in f.data ==> g.columns == f.columns + [c]
    ensures g.data == f.data[c := vals]
  {
    Frame(if c in f.data then f.columns else f.columns + [c], f.data[c := vals], f.height)
  }

  /** The columns of `cols` that are not in `drop`, in their original order. */
  function Without(cols: seq<Col>, drop: set<Col>): (r: seq<Col>)
    ensures forall c :: c in r <==> c in cols && c !in drop
    ensures Distinct(cols) ==> Distinct(r)
    ensures (forall c :: c in cols ==> c !in drop) ==> r == cols
  {
    if cols == [] then []
    else if cols[0] in drop then Without(cols[1..], drop)
    else [cols[0]] + Without(cols[1..], drop)
  }

  /** pandas `X.drop(columns=drop, errors='ignore')`. */
  function DropColumns(f: Frame, drop: set<Col>): (g: Frame)
    requires f.Valid()
    ensures g.Valid() && g.height == f.height
    ensures g.columns == Without(f.columns, drop)
    ensures g.data == f.data - drop
  {
    Frame(Without(f.columns, drop), f.data - drop, f.height)
  }

  /** A pandas DataFrame object: its columns can be overwritten in place. */
  class DataFrame {
    var columns: seq<Col>
    var data: map<Col, seq<Cell>>
    var height: nat

    function Contents(): Frame
      reads this
    {
      Frame(columns, data, height)
    }

    ghost predicate Valid()
      reads this
    {
      Contents().Valid()
    }

    constructor (f: Frame)
      requires f.Valid()
      ensures Valid() && Contents() == f
    {
      columns, data, height := f.columns, f.data, f.height;
    }

    /** `X.copy()`: a new frame with the same contents. */
    method Copy() returns (g: DataFrame)
      requires Valid()
      ensures fresh(g) && g.Valid() && g.Contents() == Contents()
    {
      g := new DataFrame(Contents());
    }

    /** `X[c] = vals` on this frame. */
    method SetColumn(c: Col, vals: seq<Cell>)
      requires Valid() && |vals| == height
      modifies this
      ensures Valid() && Contents() == WithColumn(old(Contents()), c, vals)
    {
      var g := WithColumn(Contents(), c, vals);
      columns, data := g.columns, g.data;
    }

    /** `X.drop(columns=drop, inplace=True, errors='ignore')`. */
    method Drop(drop: set<Col>)
      requires Valid()
      modifies this
      ensures Valid() && Contents() == DropColumns(old(Contents()), drop)
    {
      var g := DropColumns(Contents(), drop);
      columns, data := g.columns, g.data;
    }
  }
}

=== FILE: type_field.dfy ===
/** The property-type text box of the prediction page: on every keystroke it
    counts the datalist options whose lower-cased value contains the
    lower-cased input, and marks itself valid or invalid by two classes. */
module TypeField {

  const ValidMarker: string := "valid-input"
  const InvalidMarker: string := "invalid-input"

  function LowerChar(c: char): (r: char)
    ensures !('A' <= r <= 'Z')
    ensures 'A' <= c <= 'Z' ==> r as int == c as int + 32
    ensures !('A' <= c <= 'Z') ==> r == c
  {
    if 'A' <= c <= 'Z' then (c as int + 32) as char else c
  }

  /** `toLowerCase()` on the ASCII letters. */
  function Lower(s: string): (r: string)
    ensures |r| == |s|
    ensures forall i :: 0 <= i < |r| ==> !('A' <= r[i] <= 'Z')
  {
    seq(|s|, i requires 0 <= i < |s| => LowerChar(s[i]))
  }

  /** `s.includes(sub)`. */
  function Includes(s: string, sub: string): bool
    decreases |s|
  {
    if |sub| > |s| then false
    else if s[..|sub|] == sub then true
    else Includes(s[1..], sub)
  }

  /** `sub` occurs in `s` starting at position i. */
  predicate OccursAt(s: string, sub: string, i: int) {
    0 <= i && i + |sub| <= |s| && s[i..i + |sub|] == sub
  }

  /** Includes finds `sub` exactly when it occurs at some position of `s`. */
  lemma {:induction false} IncludesIff(s: string, sub: string)
    ensures Includes(s, sub) <==> exists i :: OccursAt(s, sub, i)
    decreases |s|
  {
    if |sub| > |s| {
    } else if s[..|sub|] == sub {
      assert OccursAt(s, sub, 0);
    } else {
      IncludesIff(s[1..], sub);
      if Includes(s[1..], sub) {
        var i :| OccursAt(s[1..], sub, i);
        assert s[i + 1..i + 1 + |sub|] == s[1..][i..i + |sub|];
        assert OccursAt(s, sub, i + 1);
      }
      if exists i :: OccursAt(s, sub, i) {
        var i :| OccursAt(s, sub, i);
        assert i != 0;
        assert s[1..][i - 1..i - 1 + |sub|] == s[i..i + |sub|];
        assert OccursAt(s[1..], sub, i - 1);
      }
    }
  }

  /** The number of options whose lower-cased value contains `v`, counted
      from the end so that a loop over a growing prefix can keep it. */
  function MatchCount(v: string, options: seq<string>): (n: nat)
    ensures n <= |options|
  {
    if options == [] then 0
    else MatchCount(v, options[..|options| - 1]) + (if Includes(Lower(options[|options| - 1]), v) then 1 else 0)
  }

  /** Some option matches exactly when the count is positive. */
  lemma {:induction false} MatchCountPositive(v: string, options: seq<string>)
    ensures MatchCount(v, options) > 0 <==> exists k :: 0 <= k < |options| && Includes(Lower(options[k]), v)
  {
    if options != [] {
      var init := options[..|options| - 1];
      MatchCountPositive(v, init);
      if exists k :: 0 <= k < |init| && Includes(Lower(init[k]), v) {
        var k :| 0 <= k < |init| && Includes(Lower(init[k]), v);
        assert options[k] == init[k];
      }
      if exists k :: 0 <= k < |options| && Includes(Lower(options[k]), v) {
        var k :| 0 <= k < |options| && Includes(Lower(options[k]), v);
        if k < |init| {
          assert init[k] == options[k];
        }
      }
    }
  }

  /** The empty input is contained in every option, so it matches them all. */
  lemma {:induction false} EmptyMatchesAll(options: seq<string>)
    ensures MatchCount("", options) == |options|
  {
    if options != [] {
      EmptyMatchesAll(options[..|options| - 1]);
      assert Lower(options[|options| - 1])[..0] == "";
    }
  }

  /** The class list after the handler's if / else if / else. */
  function Markers(classes: set<string>, v: string, matchCount: nat): set<string> {
    if v != "" && matchCount > 0 then classes + {ValidMarker} - {InvalidMarker}
    else if v != "" then classes + {InvalidMarker} - {ValidMarker}
    else classes - {ValidMarker, InvalidMarker}
  }

  /** After the handler: a non-empty input carries exactly one marker, the
      valid one exactly when some option contains it; the empty input
      carries neither, though it matches every option; no other class of
      the box changes. */
  lemma InputMarkers(classes: set<string>, input: string, options: seq<string>)
    ensures var v := Lower(input);
      var m := Markers(classes, v, MatchCount(v, options));
      && (input != "" ==> (ValidMarker in m <==> InvalidMarker !in m))
      && (input != "" ==> (ValidMarker in m <==> exists k :: 0 <= k < |options| && Includes(Lower(options[k]), v)))
      && (input == "" ==> ValidMarker !in m && InvalidMarker !in m)
      && (forall c :: c != ValidMarker && c != InvalidMarker ==> (c in m <==> c in classes))
  {
    MatchCountPositive(Lower(input), options);
  }

  /** The text box: its current text and its class list. */
  class TypeInput {
    var value: string
    var classes: set<string>

    /** The element the page looks up; its text and classes come from the
        HTML, so both are given. */
    constructor (value: string, classes: set<string>)
      ensures this.value == value && this.classes == classes
    {
      this.value := value;
      this.classes := classes;
    }

    /** The `input` event handler, over the datalist's option values. */
    method OnInput(options: seq<string>)
      modifies this
      ensures value == old(value)
      ensures classes == Markers(old(classes), Lower(value), MatchCount(Lower(value), options))
    {
      var v := Lower(value);
      var matchCount := 0;
      for k := 0 to |options|
        invariant matchCount == MatchCount(v, options[..k])
      {
        assert options[..k + 1][..k] == options[..k];
        if Includes(Lower(options[k]), v) {
          matchCount := matchCount + 1;
        }
      }
      assert options[..|options|] == options;
      if v != "" && matchCount > 0 {
        classes := classes + {ValidMarker};
        classes := classes - {InvalidMarker};
      } else if v != "" {
        classes := classes + {InvalidMarker};
        classes := classes - {ValidMarker};
      } else {
        classes := classes - {ValidMarker, InvalidMarker};
      }
    }
  }
}

=== FILE: wrappers.dfy ===
/** The optional value and the failure-compatible result shared by every
    module of the model. */
module Wrappers {

  datatype Option<+T> = None | Some(value: T)

  datatype Result<+T, +E> = Ok(value: T) | Err(error: E) {
    predicate IsFailure() { Err? }

    function PropagateFailure<U>(): Result<U, E>
      requires Err?
    {
      Err(error)
    }

    function Extract(): T
      requires Ok?
    {
      value
    }
  }
}
